=== FILE: README.md ===
# alvarcarto render-snapshot: a verified model of the poster matrix and its naming

The render-snapshot tool is part of the Alvar Carto poster service. It takes
reference snapshots of rendered posters and compares new renders against
them. This project models the tool's deterministic core in Dafny:

- **The poster matrix.** `getCombinations` maps a service name to a list of
  axis groups. `getPosters` expands each group by an 8-way cartesian product
  (locations, label flags, formats, poster styles, map styles, sizes,
  orientations, zoom levels). Each combination is joined with its location
  from the five-entry catalogue, given bounds and a coordinate label, and
  filtered by the group's optional filter. The groups are concatenated in
  order.
- **The size parser.** `parseSizeToPixelDimensions` handles the named paper
  sizes A3–A6 and the `<W>x<H>cm` / `<W>x<H>inch` tokens. It prints at 300
  DPI, rounds as `Math.round` does, and swaps width and height for landscape.
- **Selection and storage naming in the core script.** This covers the
  `--only key:value` filter, the five-field base name, the public S3 URL and
  the choice between an S3 upload and a local file.
- **Report shaping.** Every visual diff becomes an entry with a designer
  link, a title, a service explanation and a format note. The entries are
  ordered by differing pixels, largest first, with ties kept in input order.
- **The key-rename helpers.** `removeEnd` and `transformKeyName`. The latter
  is built on Node's POSIX `path.basename` and `path.extname`, which are
  modelled here after Node's implementation.

## Modules

| file | module | models |
|---|---|---|
| seqs.dfy | `Seqs` | `Option`/`Result`, lodash-style map, filter, flat-map, sum, and a `_.map` whose callback may throw |
| strings.dfy | `Strings` | `split`/`join` on one character, `_.endsWith`, `parseInt(s, 10)` |
| cartesian.dfy | `Cartesian` | the n-way cartesian product and counting over it |
| locations.dfy | `Locations` | the location catalogue and lookup by id |
| sizes.dfy | `Sizes` | the size parser and the orientation swap |
| posters.dfy | `Posters` | `getCombinations`, `getBounds`, `prettyLabel`, `getPosters` |
| core.dfy | `Core` | `filterPosters`, `posterToFileBaseName`, `getS3Url`, `savePosterToTarget` |
| stablesort.dfy | `StableSort` | a stable sort on an integer key, largest key first (`_.orderBy(…, 'desc')`) |
| reporting.dfy | `Reporting` | `getFormatDescription`, the service explanation lookup, the entry shaping and the sort in `generateHtml` |
| rename.dfy | `RenameKeys` | `removeEnd`, `transformKeyName`, and Node's `path.basename` / `path.extname` |

### Parameters that stand for code outside the model

These are the parameters a caller supplies:

- `Posters.Libraries`:
  - `getLatLngBounds`, the spherical-Mercator projection of a library.
  - `Number.prototype.toFixed(3)`.
- `Core.Env`:
  - minimatch with `nocase`.
  - `String(number)`.
  - `toLowerCase`.
- `Reporting.ReportEnv`:
  - `querystring.stringify`.
  - `millify`.

Every property below holds for all choices of these functions.

### How the code and its description differ

Where the two differ, the model follows the code:

- An unknown service name, and `all`, select the default group rather than
  raising an error (src/posters.js:153-164).
- The storage base name uses only five fields. Posters can therefore share a
  name. `hki_la` and `hki_lab` have the same label header `00200`, so the
  same combination at either place gets the same key
  (`Core.SharedNameAcrossLocations`), and so do combinations that differ
  only in zoom, format or label flag (see Findings).
- `generateHtml` reads `diff.basename` for the entry id and `diff.baseName`
  for the title (src/reporting.js:52-54). The model keeps them as two
  separate optional fields. A diff without `baseName` gets the title
  `undefined.png` (`Reporting.TitleWithoutBaseName`).
- src/posters.js imports `DESIGNER_DIMENSIONS` and
  `posterSizeToDesignerPixels`, but src/util/index.js does not export them.
  `_.has(undefined, size)` is always false, so `getBounds` always uses
  `parseSizeToPixelDimensions` (src/posters.js:11-26).
- The unit is read from the last two characters of the token, which is
  `ch` for `inch`. Anything other than `cm` counts as inches, so
  `30x40cmz` passes the unanchored pattern and is read as 30 × 40 inches
  (`Sizes.TrailingTextChangesUnit`).

## Model

| member | source | states |
|---|---|---|
| Locations.Find | src/locations.js:2-57 | lookup by id succeeds exactly for the five catalogue ids and returns the entry with that id |
| Locations.FindCatalogEntry | src/locations.js:2-57 | catalogue ids are distinct, so looking up any entry's id returns that entry |
| Locations.SharedLabelHeader | src/locations.js:16-37 | `hki_la` and `hki_lab` are different places that share the label header `00200` |
| Sizes.Round | src/util/index.js:87-88 | `Math.round` gives the integer r with r ≤ x + 1/2 < r + 1 |
| Sizes.RoundMonotone | src/util/index.js:105-106 | rounding preserves order |
| Sizes.ResolveOrientation | src/util/index.js:65-74 | width and height are swapped exactly for `landscape`; every other orientation leaves them unchanged |
| Sizes.HasSizePattern | src/util/index.js:92 | the left-to-right scan finds a match exactly when some substring matches `[0-9]+x[0-9]+(cm\|inch)` (unanchored) |
| Sizes.ScanCorrect | src/util/index.js:92 | a scan from position j finds a match exactly when one starts at or after j |
| Sizes.ParseSizeToPixelDimensions | src/util/index.js:82-108 | a string size is accepted exactly when it is a named size or contains a pattern match; otherwise the result is the size error. A non-string size is always an error here (see Left out) |
| Sizes.LandscapeSwapsPortrait | src/util/index.js:86-89 | for every input, portrait and landscape are both accepted or both rejected, and landscape is portrait with width and height swapped |
| Sizes.NamedSizePixels | src/util/index.js:9-14 | named sizes skip the pattern check and give round(inches × 300) in each dimension |
| Sizes.A6Portrait | src/util/index.js:10 | A6 portrait is 1230 × 1740 pixels |
| Sizes.InchTokenPixels | src/util/index.js:96-107 | `<W>x<H>inch` in portrait is exactly W·300 × H·300 |
| Sizes.CmTokenPixels | src/util/index.js:96-107 | `<W>x<H>cm` gives round(W × 0.393700787 × 300) × round(H × 0.393700787 × 300), oriented |
| Sizes.CmPortraitWidthAtMostHeight | src/util/index.js:101-107 | for a cm token with W ≤ H, the portrait width is at most the portrait height |
| Sizes.WellFormedTokenDimensions | src/util/index.js:96-102 | a digits-x-digits token with unit cm or inch matches the pattern and its numbers are its two digit runs |
| Sizes.ThirtyByFortyCm | src/util/index.js:96-107 | 30x40cm gives 3543 × 4724 in portrait and 4724 × 3543 in landscape |
| Sizes.TwelveByEighteenInch | src/util/index.js:97-107 | 12x18inch gives 3600 × 5400 |
| Sizes.TrailingTextChangesUnit | src/util/index.js:92-102 | `30x40cmz` is accepted, and because its last two characters are not `cm` it is read as inches: 9000 × 12000 |
| Sizes.LeadingTextGivesNaN | src/util/index.js:92-100 | `a1x2inch` is accepted by the unanchored pattern, and `parseInt('a1')` makes the width NaN |
| Sizes.ExtendedMatch | src/util/index.js:92 | text appended after a matching token keeps it matching |
| Sizes.PrefixedMatch | src/util/index.js:92 | text put before a matching token keeps it matching |
| Sizes.RejectedSizes | src/util/index.js:92-94 | the strings `30x40` (no unit) and `A7` are rejected, and so is the model's single non-string case |
| Sizes.RejectedWithoutUnit | src/util/index.js:92-94 | a string that is not a named size and has neither `c` nor `i` in it cannot hold a unit, so it is rejected |
| Strings.JoinSplit | src/core.js:109 | joining the pieces of `split(c)` with c gives back the text |
| Strings.SplitJoin | src/core.js:109 | splitting a join of separator-free pieces gives back the pieces |
| Strings.ParseIntDigits | src/util/index.js:99-100 | `parseInt` of a digit run followed by a non-digit is the run's decimal value |
| Posters.GetCombinations | src/posters.js:42-166 | there is always at least one group; an unknown service gives the default group; render, tile, minimal and placement use only the main location, which is the given id or else `tokyo_c` |
| Posters.MinimalIsPlacement | src/posters.js:141-152 | `minimal` and `placement` select the same groups |
| Posters.UnknownServiceIsDefault | src/posters.js:153-164 | `all` and every unknown service name give the default group, whatever the main location |
| Posters.PrettyLabel | src/posters.js:28-40 | the label is `toFixed3(\|lat\|)°H / toFixed3(\|lng\|)°H'`, where H is N iff lat > 0 (else S) and H' is E iff lng > 0 (else W), so zero is S or W |
| Posters.BuiltLabelHemispheres | src/posters.js:199-201 | a generated poster's label reads N exactly when its latitude is positive (else S), and E exactly when its longitude is positive (else W) |
| Posters.BuildPosterSpec | src/posters.js:177-198 | a combination builds exactly when its location is in the catalogue and its size is accepted; a missing location gives "location not found". A built poster carries the combination's eight values and the location's coordinates and headers. Its label is `prettyLabel` of its coordinates, and its bounds are the projection of its coordinates, zoom and parsed pixel size |
| Posters.BuildMissing | src/posters.js:182-185 | an id missing from the catalogue gives the location-not-found error |
| Posters.TupleDecodes | src/posters.js:180-187 | every product tuple decodes into a combination whose fields are drawn from the group's axes, and encodes back to the same tuple |
| Posters.CombinationMember | src/posters.js:180 | a combination is produced exactly when each of its eight fields is in the corresponding axis |
| Posters.CombinationCount | src/posters.js:180 | a group has exactly the product of its eight axis lengths as combinations |
| Posters.GroupBuilds | src/posters.js:181-203 | a group whose locations and sizes are valid builds one poster per combination, in combination order |
| Posters.GroupMissingLocation | src/posters.js:182-185 | a group whose single location is missing fails with that id |
| Posters.AssembleOk | src/posters.js:172-207 | the assembly succeeds exactly when every group builds |
| Posters.AssembleFirstError | src/posters.js:172-207 | a failing assembly reports the first failing group's error |
| Posters.AssembleLength | src/posters.js:172-207 | the output length is the sum over groups of the posters each group's filter keeps |
| Posters.AssembleAppend | src/posters.js:172-207 | assembling two group lists in sequence concatenates their outputs |
| Posters.PostersInGroupOrder | src/posters.js:172-207 | each group's posters come after those of the groups before it |
| Posters.PostersKeepBatchOrder | src/posters.js:200-206 | the output is an order-preserving subsequence of all unfiltered batches laid end to end |
| Posters.PostersOfMember | src/posters.js:172-207 | a poster is in the output exactly when some group has a combination that builds to it and the group's filter keeps it |
| Posters.KeepAllGroupsCount | src/posters.js:172-207 | for valid unfiltered groups, the output length is the sum of the groups' axis products |
| Posters.RenderSize | src/posters.js:49-91 | the render groups have 48 + 6 + 2 = 56 combinations |
| Posters.RenderCount | src/posters.js:49-91 | with a catalogue main location, `render` yields 56 posters |
| Posters.TileCount | src/posters.js:117-127 | with a catalogue main location, `tile` yields 4 posters |
| Posters.PlacementCount | src/posters.js:141-152 | with a catalogue main location, `placement` and `minimal` yield 3 posters |
| Posters.TestReportCount | src/posters.js:129-139 | `test-report` yields 2 posters |
| Posters.DefaultCount | src/posters.js:153-164 | `all` and unknown services yield 4·4·6·2·5·12 = 11520 posters |
| Posters.RenderMapKept | src/posters.js:93-115 | the render-map group builds 385 posters and its filter keeps 196 of them |
| Posters.RenderMapCount | src/posters.js:93-115 | `render-map` yields 196 posters: 5 locations × 7 styles at zoom 15–16 plus 2 centre locations × 7 styles at zoom 6–14 |
| Posters.TupleKeep | src/posters.js:104-114 | the render-map filter keeps a poster exactly when its location is `hki_c` or `tokyo_c` or its zoom level is at least 15 |
| Posters.MainFirstGroup | src/posters.js:42-152 | for render, tile, minimal and placement, the first group's only location is the main location, and that group has at least one combination |
| Posters.MissingMainLocation | src/posters.js:182-185 | for render, tile, minimal and placement, a main location id missing from the catalogue makes `getPosters` fail with "location not found" for that id |
| Posters.StandardSizesValid | src/posters.js:42-166 | every size the groups use is accepted by the size parser |
| Cartesian.ProductLength | src/posters.js:180 | the product has the product of the axis lengths as its length |
| Cartesian.ProductMember | src/posters.js:180 | a tuple is in the product exactly when it has one component per axis, each drawn from its axis |
| Cartesian.CountByEnds | src/posters.js:104-114 | counting tuples by a predicate on their first and last components multiplies by the middle axes' sizes |
| Core.FilterPosters | src/core.js:102-128 | with no string pattern or `**`, the input comes back unchanged. Otherwise a poster is kept exactly when some property name matches the key glob and its text matches the value glob; every occurrence of a kept poster is kept and the order is preserved |
| Core.PatternWithoutColon | src/core.js:109-113 | with no ':', the key glob is `**` and the value glob is the whole text |
| Core.PatternSegments | src/core.js:114-117 | with ':', the first two segments are the globs and further segments are ignored |
| Core.FileBaseNameSplit | src/core.js:160-168 | when no field contains '-', splitting the base name on '-' gives back lower-cased label header, size, poster style, map style and orientation |
| Core.SameBaseNameIff | src/core.js:160-168 | for dash-free fields, two posters share a base name exactly when they agree on those five fields; zoom, format, label flag and location do not enter |
| Core.SharedNameAcrossLocations | src/core.js:160-168 | the same combination built at `hki_la` and at `hki_lab` gives two different posters with one base name |
| Core.ZoomLevelsShareName | src/core.js:160-168 | two combinations that differ only in zoom level build two different posters with one base name |
| Core.DistinctFileBaseNameIff | src/core.js:160-168 | with the location id, format, label flag and zoom added to the name, two built posters share a name exactly when they come from the same combination (dash-free fields, `String` injective on integers) |
| Core.GetS3Url | src/core.js:170-173 | the URL is the fixed snapshot-bucket URL, then exactly the poster's base name, then `.png` |
| Core.SameS3UrlIff | src/core.js:160-173 | for posters whose base-name fields hold no '-', the S3 URLs are equal exactly when the five base-name fields are equal |
| Core.SavePosterToTarget | src/core.js:64-100 | target `s3` uploads `<base name>.png` to the configured bucket, with ACL public-read and type image/png; any other target writes `images/snapshots/<base name>.png` |
| Core.S3UrlMatchesUploadKey | src/core.js:170-173 | the URL the comparison reads is the bucket URL followed by exactly the key the upload writes |
| Core.LocalFileMatchesUploadKey | src/core.js:84-92 | a local save writes `images/snapshots/` followed by the same file name the upload uses as its key |
| StableSort.SortDescSorted | src/reporting.js:62 | the sorted list is a permutation of its input, with keys non-increasing |
| StableSort.SortDescStable | src/reporting.js:62 | for every key, the elements with that key keep their input order |
| StableSort.SortDescUnique | src/reporting.js:62 | a list that is sorted, a permutation of the input and stable on every key is unique |
| Reporting.ServiceExplanation | src/reporting.js:12-17 | the four known services get their table text; any other service falls back to its own name, and only then is the result the name itself |
| Reporting.FormatDescription | src/reporting.js:19-30 | the note is empty exactly for png, the SVG font note exactly for svg, and the generic conversion note otherwise |
| Reporting.DesignerQuery | src/reporting.js:37-49 | the designer query takes lat and lng from the catalogue entry and uses zoom = zoomLevel + 0.5 |
| Reporting.ShapeEntry | src/reporting.js:35-61 | an entry is made exactly when the poster's location is in the catalogue. It keeps the diff, and its id is `diff.basename`. Its title is `baseName` + `.png`. Its explanation and format note are the table lookups. Its designer link is the designer prefix plus the stringified query for the poster at its catalogue entry |
| Reporting.EntryNotes | src/reporting.js:51-60 | in an entry, the format note is empty exactly for png and is the SVG warning exactly for svg; the service explanation is the service's own name exactly when the table has no entry for it |
| Reporting.TitleWithoutBaseName | src/reporting.js:54 | a diff without `baseName` gets the title `undefined.png` |
| Reporting.TitleWithBaseName | src/reporting.js:54 | a diff that carries `baseName` gets the title `baseName.png` |
| Reporting.ReportEntriesOk | src/reporting.js:35-62 | the report is built exactly when every diff's location is known; otherwise the first unknown location is reported |
| Reporting.ReportEntriesOrdered | src/reporting.js:62 | entries are ordered by differences, non-increasing, as a permutation of the shaped diffs with ties kept in input order |
| Reporting.ReportEntriesMember | src/reporting.js:35-62 | every entry is the shaping of some diff, and every diff's shaping is an entry |
| Reporting.ReportEntriesLength | src/reporting.js:35-62 | there is one entry per diff |
| Reporting.DesignerLinkCoordinates | src/reporting.js:36-40 | for a generated poster, the designer link's lat and lng are the poster's own, and its zoom is the zoom level + 0.5 |
| RenameKeys.RemoveEnd | tools/rename-s3-files.js:9-15 | without the ending the text is unchanged; with it, result + ending is the text; the result is always a prefix, shorter by \|ending\| exactly when stripped |
| RenameKeys.RemoveEndEmpty | tools/rename-s3-files.js:9-15 | removing the empty ending changes nothing |
| RenameKeys.RemoveAppendedEnd | tools/rename-s3-files.js:9-15 | removing an ending undoes appending it |
| RenameKeys.TrimTrailingSlashes | tools/rename-s3-files.js:19-20 | the trimmed path is a prefix of the path that does not end in '/', and everything it drops is '/' |
| RenameKeys.LastComponent | tools/rename-s3-files.js:19-20 | the final component has no '/', ends the trimmed path, and is preceded there by a '/' unless it starts the path |
| RenameKeys.Basename | tools/rename-s3-files.js:19 | with no suffix, or one longer than the path, the result is the final component; a suffix equal to the whole path gives the empty string; otherwise the component is matched against the suffix as `StripComponent` states |
| RenameKeys.StripComponent | tools/rename-s3-files.js:19 | a component equal to the suffix is kept whole; a proper ending is cut off, so result + suffix is the component; a component that is itself a proper ending of the suffix comes back followed by the path's trailing separators; any other component is kept |
| RenameKeys.SliceFromComponent | tools/rename-s3-files.js:19 | the component followed by the trailing separators is exactly the path from the component's start, the slice Node returns |
| RenameKeys.BasenameKeepsSeparators | tools/rename-s3-files.js:19 | `x/png/` with suffix `.png` gives `png/`: the separator comes back with a component shorter than the suffix |
| RenameKeys.ExtensionOf | tools/rename-s3-files.js:19-20 | the extension is empty exactly when there is no dot, the only dot starts the component, or the component is `..`. Otherwise it is a proper ending of the component that starts at its last '.' (no other '.' follows) |
| RenameKeys.TransformKeyNameIsLastComponent | tools/rename-s3-files.js:18-23 | the renamed key is the key's final '/'-separated component |
| RenameKeys.TransformKeyNameIdentity | tools/rename-s3-files.js:18-23 | a key without '/' is unchanged |
| RenameKeys.TransformKeyNameIdempotent | tools/rename-s3-files.js:18-23 | renaming twice is the same as renaming once |
| RenameKeys.RenamedInDirectory | tools/rename-s3-files.js:18-23 | a key `dir/name` is renamed to `name`, whatever the directory |
| RenameKeys.TransformKeyNameMergesKeys | tools/rename-s3-files.js:18-50 | the distinct keys `x/a.png` and `y/a.png` are both renamed to `a.png` |
| RenameKeys.KeepKeyName | tools/rename-s3-files.js:17-23 | with the directory and trailing separators put back around the rebuilt name, the renaming returns the key unchanged |

## Findings

| source | as written | input that shows it | evidently intended | confidence | as-written member | corrected member |
|---|---|---|---|---|---|---|
| src/core.js:160-168 | `posterToFileBaseName` joins only label header, size, poster style, map style and orientation | a combination and the same one with zoom + 1 (the render-map group spans zooms 6-16) get one name, so their S3 uploads overwrite each other; so do `hki_la` and `hki_lab` | every generated combination gets its own storage name | medium: not executed | Core.ZoomLevelsShareName | Core.DistinctFileBaseNameIff |
| tools/rename-s3-files.js:17-23 | `transformKeyName` rebuilds the key from `path.basename` and `path.extname`, which keep only the last '/'-separated component, though its comment says the name comes back as is | `x/a.png` and `y/a.png` both become `a.png`; the loop at lines 40-50 copies each onto `a.png` and deletes the original, so one object is lost | the key comes back unchanged, directory included | low: the snapshot keys the tool writes have no '/'; not executed | RenameKeys.TransformKeyNameMergesKeys | RenameKeys.KeepKeyName |

## Left out

- HTTP fetching with retries, S3 upload, list, copy and delete, and local
  file writes. These are network and storage I/O. `savePosterToTarget` is
  modelled as the action it would take, not as its effect.
- The snapshot and compare orchestration: concurrency, `sharp` resizing,
  BlinkDiff pixel diffing and the temporary-file clean-up. These are image
  libraries, the file system and asynchronous control.
- PDF rendering (src/util/pdf2png.js).
- The poster, placement and render-map URL builders. They are thin wrappers
  over `qs.stringify` and the environment configuration.
- The CLI and configuration modules, the duplicate legacy script, and the
  static gallery data files.
- The spherical-Mercator bounds, `toFixed(3)`, `String(number)`,
  `toLowerCase`, minimatch, `querystring.stringify` and `millify`. These are
  library code that is not part of this model, so they are function
  parameters.
- Mustache rendering, the `moment` timestamp and the page title and
  description of the report. These are templating and the clock.
- Numbers are exact `real`s and unbounded `int`s, not IEEE doubles.
  - `0.393700787 × 300 × W` is computed without floating-point error.
  - `parseInt` of a very long digit run is not rounded to a double.
- Core.FilterPosters: does not model minimatch's glob language or its
  `nocase` option. The matcher is a parameter, and only the `**`
  short-circuit is concrete.
- Core.FilterPosters: modelled over the generated list of posters. The
  script passes the `src/posters` module object itself, and iterating that
  object belongs to the orchestration left out above.
- Reporting.ShapeEntry: the diff carries only the fields the report reads.
  A diff that already has an `id`, `title` or similar property would have
  it overwritten by `_.extend`; that is not modelled.
- Reporting.ServiceExplanation: inherited object-prototype names such as
  `constructor` are not looked up as table entries.
- Sizes.ParseSizeToPixelDimensions: every non-string size is one rejected
  case. The source also accepts a one-element array that names a size, such
  as `['A6']`, because lodash `_.has` reads an array as a key path and the
  property lookup turns it back into `A6`. Generated posters only pass
  strings.
- Sizes.ParseSizeToPixelDimensions: the error message text is not modelled,
  only which inputs fail.
- Posters.GetCombinations: `_.merge` of option objects is reduced to an
  optional main location id. Non-string ids are not modelled.
- Cartesian.ProductMember: the enumeration order of the product library is
  fixed here as first axis fastest. Only counts, membership, group order
  and the order the filters preserve are claimed about the output.
- RenameKeys.TransformKeyNameIsLastComponent: Windows path semantics are not
  modelled; the script runs with POSIX `path`.

=== FILE: cartesian.dfy ===
/**
 The n-way cartesian product that expands one axis group of the poster
 matrix. A tuple is a sequence with one entry per axis; the first axis varies
 fastest. Only the length, the membership and a counting rule are relied on
 elsewhere, never the enumeration order itself.
 */
module Cartesian {
  import opened Seqs

  /** One layer of the product: `[v] + t` for every `v` of `first`, in order. */
  function Extend<T>(first: seq<T>, t: seq<T>): seq<seq<T>>
  {
    Map(first, (v: T) => [v] + t)
  }

  function Extender<T>(first: seq<T>): seq<T> -> seq<seq<T>>
  {
    (t: seq<T>) => Extend(first, t)
  }

  function Product<T>(axes: seq<seq<T>>): seq<seq<T>>
    decreases |axes|
  {
    if axes == [] then [[]] else FlatMap(Product(axes[1..]), Extender(axes[0]))
  }

  /** The product of the axis lengths. */
  function Size<T>(axes: seq<seq<T>>): nat
    decreases |axes|
  {
    if axes == [] then 1 else |axes[0]| * Size(axes[1..])
  }

  lemma {:induction false} ProductLength<T>(axes: seq<seq<T>>)
    ensures |Product(axes)| == Size(axes)
    decreases |axes|
  {
    if axes != [] {
      var rest := Product(axes[1..]);
      ProductLength(axes[1..]);
      FlatMapLength(rest, Extender(axes[0]), |axes[0]|);
    }
  }

  /** A tuple is in the product exactly when it has one component from each axis, in axis order. */
  lemma ProductMember<T>(axes: seq<seq<T>>, t: seq<T>)
    ensures t in Product(axes) <==> |t| == |axes| && forall i :: 0 <= i < |t| ==> t[i] in axes[i]
  {
    if t in Product(axes) {
      ProductMemberComponents(axes, t);
    }
    if |t| == |axes| && forall i :: 0 <= i < |t| ==> t[i] in axes[i] {
      ProductMemberOf(axes, t);
    }
  }

  lemma {:induction false} ProductMemberComponents<T>(axes: seq<seq<T>>, t: seq<T>)
    requires t in Product(axes)
    ensures |t| == |axes| && forall i :: 0 <= i < |t| ==> t[i] in axes[i]
    decreases |axes|
  {
    if axes == [] {
      assert Product(axes) == [[]];
    } else {
      var rest := Product(axes[1..]);
      FlatMapMember(rest, Extender(axes[0]), t);
      var u :| u in rest && t in Extend(axes[0], u);
      MapMember(axes[0], (v: T) => [v] + u, t);
      var v :| v in axes[0] && t == [v] + u;
      ProductMemberComponents(axes[1..], u);
      forall i | 0 <= i < |t|
        ensures t[i] in axes[i]
      {
        if i > 0 {
          assert t[i] == u[i - 1];
        }
      }
    }
  }

  lemma {:induction false} ProductMemberOf<T>(axes: seq<seq<T>>, t: seq<T>)
    requires |t| == |axes| && forall i :: 0 <= i < |t| ==> t[i] in axes[i]
    ensures t in Product(axes)
    decreases |axes|
  {
    if axes == [] {
      assert t == [];
      assert Product(axes) == [[]];
    } else {
      var rest := Product(axes[1..]);
      var u := t[1..];
      forall i | 0 <= i < |u|
        ensures u[i] in axes[1..][i]
      {
        assert u[i] == t[i + 1];
      }
      ProductMemberOf(axes[1..], u);
      assert t[0] in axes[0];
      MapMember(axes[0], (v: T) => [v] + u, t);
      assert t == [t[0]] + u;
      assert t in Extend(axes[0], u);
      FlatMapMember(rest, Extender(axes[0]), t);
    }
  }

  /** Every tuple of the product has one component per axis. */
  lemma ProductTupleLength<T>(axes: seq<seq<T>>, t: seq<T>)
    requires t in Product(axes)
    ensures |t| == |axes|
  {
    ProductMember(axes, t);
  }

  function Last<T>(t: seq<T>): T
    requires |t| > 0
  {
    t[|t| - 1]
  }

  /** Weight of a tuple by its last component. */
  function ByLast<T>(h: T -> int): seq<T> -> int
  {
    (t: seq<T>) => if |t| > 0 then h(Last(t)) else 0
  }

  /** Predicate on a tuple that looks only at its first and last components. */
  function Ends<T>(q: (T, T) -> bool): seq<T> -> bool
  {
    (t: seq<T>) => |t| > 0 && q(t[0], Last(t))
  }

  function Fix<T>(q: (T, T) -> bool, z: T): T -> bool
  {
    (v: T) => q(v, z)
  }

  /** For a last-axis value `z`, how many first-axis values `v` satisfy `q(v, z)`. */
  function FirstCount<T>(first: seq<T>, q: (T, T) -> bool): T -> int
  {
    (z: T) => Count(first, Fix(q, z))
  }

  lemma SumByLastSingle<T>(a0: seq<T>, h: T -> int)
    ensures Sum(Product([a0]), ByLast(h)) == Sum(a0, h)
  {
    var axes := [a0];
    assert axes[1..] == [];
    var one: seq<seq<T>> := [[]];
    assert Product(axes[1..]) == one;
    assert one[1..] == [];
    assert FlatMap(one, Extender(a0)) == Extend(a0, []) + FlatMap(one[1..], Extender(a0));
    assert Product(axes) == Map(a0, (v: T) => [v] + []);
    forall v | v in a0
      ensures h(v) == ByLast(h)([v] + [])
    {
      assert Last([v] + []) == v;
    }
    SumMap(a0, (v: T) => [v] + [], ByLast(h), h);
  }

  /** Every tuple extending `t` by one first-axis value has the weight of `t`. */
  lemma SumExtendByLast<T>(a0: seq<T>, t: seq<T>, h: T -> int)
    requires |t| > 0
    ensures Sum(Extend(a0, t), ByLast(h)) == |a0| * ByLast(h)(t)
  {
    var w := ByLast(h)(t);
    forall v | v in a0
      ensures w == ByLast(h)([v] + t)
    {
      assert Last([v] + t) == Last(t);
    }
    SumMap(a0, (v: T) => [v] + t, ByLast(h), (v: T) => w);
    SumConstant(a0, (v: T) => w, w);
  }

  lemma MulAssoc(a: int, b: int, c: int)
    ensures a * (b * c) == (a * b) * c
  {
  }

  /** Summing a weight that depends on the last component only. */
  lemma {:induction false} SumByLast<T>(axes: seq<seq<T>>, h: T -> int)
    requires |axes| >= 1
    ensures Sum(Product(axes), ByLast(h)) == Size(axes[..|axes| - 1]) * Sum(axes[|axes| - 1], h)
    decreases |axes|
  {
    var a0 := axes[0];
    if |axes| == 1 {
      assert axes == [a0];
      SumByLastSingle(a0, h);
      assert axes[..0] == [];
    } else {
      var rest := Product(axes[1..]);
      var k := |a0|;
      var g := (t: seq<T>) => k * ByLast(h)(t);
      forall t | t in rest
        ensures g(t) == Sum(Extend(a0, t), ByLast(h))
      {
        ProductMember(axes[1..], t);
        SumExtendByLast(a0, t, h);
      }
      assert Product(axes) == FlatMap(rest, Extender(a0));
      SumFlatMap(rest, Extender(a0), ByLast(h), g);
      SumScaled(rest, ByLast(h), g, k);
      SumByLast(axes[1..], h);
      var init := axes[..|axes| - 1];
      assert axes[1..][..|axes[1..]| - 1] == init[1..];
      assert axes[1..][|axes[1..]| - 1] == axes[|axes| - 1];
      var m := Size(init[1..]);
      var total := Sum(axes[|axes| - 1], h);
      assert Sum(rest, ByLast(h)) == m * total;
      assert Size(init) == k * m;
      MulAssoc(k, m, total);
    }
  }

  /**
   Counting the tuples whose first and last components are related by `q`:
   every middle axis multiplies the count, the end axes contribute the number
   of related (first, last) pairs.
   */
  lemma {:induction false} CountByEnds<T>(axes: seq<seq<T>>, q: (T, T) -> bool)
    requires |axes| >= 2
    ensures Count(Product(axes), Ends(q))
         == Size(axes[1..|axes| - 1]) * Sum(axes[|axes| - 1], FirstCount(axes[0], q))
  {
    var a0 := axes[0];
    var rest := Product(axes[1..]);
    var fc := FirstCount(a0, q);
    forall t | t in rest
      ensures ByLast(fc)(t) == Count(Extend(a0, t), Ends(q))
    {
      ProductMember(axes[1..], t);
      forall v | v in a0
        ensures Fix(q, Last(t))(v) == Ends(q)([v] + t)
      {
        assert ([v] + t)[0] == v;
        assert Last([v] + t) == Last(t);
      }
      CountMap(a0, (v: T) => [v] + t, Ends(q), Fix(q, Last(t)));
    }
    CountFlatMap(rest, Extender(a0), Ends(q), ByLast(fc));
    SumByLast(axes[1..], fc);
    assert axes[1..][..|axes[1..]| - 1] == axes[1..|axes| - 1];
    assert axes[1..][|axes[1..]| - 1] == axes[|axes| - 1];
  }
}

=== FILE: core.dfy ===
/**
 The naming and selection logic of src/core.js: the `--only key:value`
 poster filter, the storage base name of a poster, the public S3 URL of a
 snapshot and where `savePosterToTarget` puts an image.
 */
module Core {
  import opened Seqs
  import opened Strings
  import opened Locations
  import opened Posters

  /**
   Library behaviour the script calls but that is not modelled:
   `minimatch(subject, pattern, { nocase: true })`, `String(number)` and
   `String.prototype.toLowerCase`.
   */
  datatype Env = Env(
    globMatches: (string, string) -> bool,
    numberText: real -> string,
    lowerCase: string -> string)

  /** A poster property value, as `String(val)` sees it. */
  datatype FieldValue = Text(s: string) | Flag(b: bool) | Number(r: real)

  function FieldText(v: FieldValue, env: Env): string
  {
    match v
    case Text(s) => s
    case Flag(b) => if b then "true" else "false"
    case Number(r) => env.numberText(r)
  }

  /** The own enumerable properties of a generated poster object, as `_.some` visits them. */
  function Fields(p: Poster): (fs: seq<(string, FieldValue)>)
    ensures |fs| == 17
  {
    [ ("lat", Number(p.lat)), ("lng", Number(p.lng)), ("labelsEnabled", Flag(p.labelsEnabled)),
      ("labelHeader", Text(p.labelHeader)), ("labelSmallHeader", Text(p.labelSmallHeader)),
      ("swLat", Number(p.bounds.swLat)), ("swLng", Number(p.bounds.swLng)),
      ("neLat", Number(p.bounds.neLat)), ("neLng", Number(p.bounds.neLng)),
      ("posterStyle", Text(p.posterStyle)), ("mapStyle", Text(p.mapStyle)), ("format", Text(p.format)),
      ("size", Text(p.size)), ("orientation", Text(p.orientation)), ("zoomLevel", Number(p.zoomLevel as real)),
      ("locationId", Text(p.locationId)), ("labelText", Text(p.labelText)) ]
  }

  datatype Patterns = Patterns(key: string, value: string)

  /**
   The key and value glob of `--only`: without a ':' the key glob is `**` and
   the value glob is the whole text; otherwise the first two ':'-separated
   segments.
   */
  function FilterPatterns(only: string): (r: Patterns)
    ensures ':' !in r.key && (r.key == "**" || ':' !in r.value)
  {
    var parts := Split(only, ':');
    if |parts| < 2 then Patterns("**", parts[0]) else Patterns(parts[0], parts[1])
  }

  /** Some property's name matches the key glob and its text matches the value glob. */
  predicate PosterMatches(p: Poster, pats: Patterns, env: Env)
  {
    var fs := Fields(p);
    exists i :: 0 <= i < |fs| && env.globMatches(fs[i].0, pats.key) && env.globMatches(FieldText(fs[i].1, env), pats.value)
  }

  function Matcher(pats: Patterns, env: Env): Poster -> bool
  {
    (p: Poster) => PosterMatches(p, pats, env)
  }

  /** `only` is `None` when `opts.only` is not a string, or when it is `**`. */
  predicate SelectsAll(only: Option<string>)
  {
    only.None? || only.value == "**"
  }

  /** `filterPosters(posters, opts)` with `opts.only` given as `only`. */
  function FilterPosters(posters: seq<Poster>, only: Option<string>, env: Env): (r: seq<Poster>)
    ensures SelectsAll(only) ==> r == posters
    ensures forall p :: p in r <==>
              p in posters && (SelectsAll(only) || PosterMatches(p, FilterPatterns(only.value), env))
    ensures IsSubsequence(r, posters)
    ensures forall p :: multiset(r)[p] ==
              if SelectsAll(only) || PosterMatches(p, FilterPatterns(only.value), env) then multiset(posters)[p] else 0
  {
    if SelectsAll(only) then
      SubsequenceSelf(posters);
      posters
    else
      var keep := Matcher(FilterPatterns(only.value), env);
      FilterSpec(posters, keep);
      FilterMultiset(posters, keep);
      Filter(posters, keep)
  }

  lemma {:induction false} SubsequenceSelf<T>(xs: seq<T>)
    ensures IsSubsequence(xs, xs)
    decreases |xs|
  {
    if xs != [] {
      SubsequenceSelf(xs[1..]);
    }
  }

  /** Without a ':' the whole text is the value glob, matched against any property name. */
  lemma {:induction false} PatternWithoutColon(only: string)
    requires ':' !in only
    ensures FilterPatterns(only) == Patterns("**", only)
  {
    SplitNoSeparator(only, ':');
  }

  /** With ':' the first two segments are the globs and any further segments are ignored. */
  lemma {:induction false} PatternSegments(key: string, value: string, ignored: seq<string>)
    requires ':' !in key && ':' !in value
    requires forall i :: 0 <= i < |ignored| ==> ':' !in ignored[i]
    ensures FilterPatterns(Join([key, value] + ignored, ':')) == Patterns(key, value)
  {
    var parts := [key, value] + ignored;
    forall i | 0 <= i < |parts|
      ensures ':' !in parts[i]
    {
      if i >= 2 {
        assert parts[i] == ignored[i - 2];
      }
    }
    SplitJoin(parts, ':');
  }

  /** The five values `posterToFileBaseName` joins, in order. */
  function BaseNameFields(p: Poster, env: Env): seq<string>
  {
    [env.lowerCase(p.labelHeader), p.size, p.posterStyle, p.mapStyle, p.orientation]
  }

  /** `posterToFileBaseName(poster)`: the five fields joined with '-'. */
  function FileBaseName(p: Poster, env: Env): string
  {
    Join(BaseNameFields(p, env), '-')
  }

  predicate DashFree(fs: seq<string>)
  {
    forall i :: 0 <= i < |fs| ==> '-' !in fs[i]
  }

  /** When no field contains '-', splitting the base name on '-' gives the five fields back. */
  lemma FileBaseNameSplit(p: Poster, env: Env)
    requires DashFree(BaseNameFields(p, env))
    ensures Split(FileBaseName(p, env), '-') == BaseNameFields(p, env)
  {
    SplitJoin(BaseNameFields(p, env), '-');
  }

  /**
   The base name depends on the five fields and, when none contains '-',
   determines them: two such posters share a name exactly when they agree
   on lower-cased label header, size, poster style, map style and orientation.
   */
  lemma SameBaseNameIff(p: Poster, q: Poster, env: Env)
    requires DashFree(BaseNameFields(p, env)) && DashFree(BaseNameFields(q, env))
    ensures FileBaseName(p, env) == FileBaseName(q, env) <==> BaseNameFields(p, env) == BaseNameFields(q, env)
  {
    if FileBaseName(p, env) == FileBaseName(q, env) {
      FileBaseNameSplit(p, env);
      FileBaseNameSplit(q, env);
    }
  }

  /**
   `hki_la` and `hki_lab` are different places with the same label header, so
   the same combination rendered at either gets the same storage name.
   */
  lemma SharedNameAcrossLocations(c: Combination, libs: Libraries, env: Env)
    requires c.locationId == "hki_la" && ValidSize(c.size)
    ensures var other := c.(locationId := "hki_lab");
            && BuildPoster(c, libs).Ok? && BuildPoster(other, libs).Ok?
            && BuildPoster(c, libs).value.lat != BuildPoster(other, libs).value.lat
            && BuildPoster(c, libs).value.locationId != BuildPoster(other, libs).value.locationId
            && FileBaseName(BuildPoster(c, libs).value, env) == FileBaseName(BuildPoster(other, libs).value, env)
  {
    var other := c.(locationId := "hki_lab");
    CatalogIdsValue();
    FindCatalogEntry(1);
    FindCatalogEntry(2);
    BuildPosterSpec(c, libs);
    BuildPosterSpec(other, libs);
  }

  /**
   Two combinations that differ only in zoom level build two different
   posters with one storage name, so their uploads overwrite each other.
   */
  lemma ZoomLevelsShareName(c: Combination, libs: Libraries, env: Env)
    requires BuildPoster(c, libs).Ok?
    ensures var other := c.(zoomLevel := c.zoomLevel + 1);
            && other != c
            && BuildPoster(other, libs).Ok?
            && BuildPoster(c, libs).value != BuildPoster(other, libs).value
            && FileBaseName(BuildPoster(c, libs).value, env) == FileBaseName(BuildPoster(other, libs).value, env)
  {
    var other := c.(zoomLevel := c.zoomLevel + 1);
    BuildPosterSpec(c, libs);
    BuildPosterSpec(other, libs);
    assert BuildPoster(c, libs).value.zoomLevel != BuildPoster(other, libs).value.zoomLevel;
  }

  /**
   The base name fields followed by the fields the five-field name leaves
   out: location id, format, label flag and zoom level.
   */
  function FullBaseNameFields(p: Poster, env: Env): (fs: seq<string>)
    ensures |fs| == 9 && fs[..5] == BaseNameFields(p, env)
  {
    BaseNameFields(p, env)
      + [p.locationId, p.format, if p.labelsEnabled then "labels" else "nolabels", ZoomText(p.zoomLevel, env)]
  }

  /** A storage name that tells every generated combination apart. */
  function DistinctFileBaseName(p: Poster, env: Env): string
  {
    Join(FullBaseNameFields(p, env), '-')
  }

  /** `String(zoomLevel)`. */
  function ZoomText(z: int, env: Env): string
  {
    env.numberText(z as real)
  }

  /** `String(n)` gives different integers different texts. */
  ghost predicate NumberTextInjective(env: Env)
  {
    forall a: int, b: int :: ZoomText(a, env) == ZoomText(b, env) ==> a == b
  }

  /**
   With dash-free fields, two built posters share the full storage name
   exactly when they were built from the same combination.
   */
  lemma DistinctFileBaseNameIff(c: Combination, d: Combination, libs: Libraries, env: Env)
    requires BuildPoster(c, libs).Ok? && BuildPoster(d, libs).Ok?
    requires NumberTextInjective(env)
    requires DashFree(FullBaseNameFields(BuildPoster(c, libs).value, env))
    requires DashFree(FullBaseNameFields(BuildPoster(d, libs).value, env))
    ensures DistinctFileBaseName(BuildPoster(c, libs).value, env) == DistinctFileBaseName(BuildPoster(d, libs).value, env)
            <==> c == d
  {
    var p := BuildPoster(c, libs).value;
    var q := BuildPoster(d, libs).value;
    BuildPosterSpec(c, libs);
    BuildPosterSpec(d, libs);
    if DistinctFileBaseName(p, env) == DistinctFileBaseName(q, env) {
      SplitJoin(FullBaseNameFields(p, env), '-');
      SplitJoin(FullBaseNameFields(q, env), '-');
      var fp := FullBaseNameFields(p, env);
      var fq := FullBaseNameFields(q, env);
      assert fp == fq;
      assert fp[1] == fq[1] && fp[2] == fq[2] && fp[3] == fq[3] && fp[4] == fq[4];
      assert fp[5] == fq[5] && fp[6] == fq[6] && fp[7] == fq[7] && fp[8] == fq[8];
      assert p.labelsEnabled == q.labelsEnabled;
      assert p.zoomLevel == q.zoomLevel;
    }
  }

  const SnapshotBucketUrl: string := "https://alvarcarto-render-snapshots.s3-eu-west-1.amazonaws.com/"

  /** `getS3Url(poster)`: where the comparison downloads a poster's reference image. */
  function GetS3Url(p: Poster, env: Env): (url: string)
    ensures |url| == |SnapshotBucketUrl| + |FileBaseName(p, env)| + 4
    ensures url[..|SnapshotBucketUrl|] == SnapshotBucketUrl && EndsWith(url, ".png")
    ensures url[|SnapshotBucketUrl|..|url| - 4] == FileBaseName(p, env)
  {
    var name := FileBaseName(p, env);
    var url := SnapshotBucketUrl + name + ".png";
    assert url[..|SnapshotBucketUrl|] == SnapshotBucketUrl;
    assert url[|SnapshotBucketUrl|..|url| - 4] == name;
    assert url[|url| - 4..] == ".png";
    url
  }

  /**
   Two posters whose base-name fields hold no '-' share an S3 URL exactly when
   they agree on those five fields.
   */
  lemma SameS3UrlIff(p: Poster, q: Poster, env: Env)
    requires DashFree(BaseNameFields(p, env)) && DashFree(BaseNameFields(q, env))
    ensures GetS3Url(p, env) == GetS3Url(q, env) <==> BaseNameFields(p, env) == BaseNameFields(q, env)
  {
    var u := GetS3Url(p, env);
    var v := GetS3Url(q, env);
    if u == v {
      assert FileBaseName(p, env) == u[|SnapshotBucketUrl|..|u| - 4] == FileBaseName(q, env);
    }
    SameBaseNameIff(p, q, env);
  }

  /** What `savePosterToTarget` does with an image, without doing it. */
  datatype SaveAction =
    | UploadToS3(bucket: string, key: string, acl: string, contentType: string)
    | WriteLocalFile(path: string)

  const LocalSnapshotDir: string := "images/snapshots/"

  /**
   `savePosterToTarget(target, poster, data)`: `'s3'` uploads (with the
   configured bucket name `bucket`), anything else, including no target,
   writes a local file.
   */
  function SavePosterToTarget(target: Option<string>, p: Poster, bucket: string, env: Env): (a: SaveAction)
    ensures a.UploadToS3? <==> target == Some("s3")
    ensures a.UploadToS3? ==> a.bucket == bucket && a.acl == "public-read" && a.contentType == "image/png"
    ensures a.UploadToS3? ==> a.key == FileBaseName(p, env) + ".png" && EndsWith(a.key, ".png")
    ensures a.WriteLocalFile? ==> |a.path| >= |LocalSnapshotDir| && a.path[..|LocalSnapshotDir|] == LocalSnapshotDir
    ensures a.WriteLocalFile? ==> a.path == LocalSnapshotDir + FileBaseName(p, env) + ".png" && EndsWith(a.path, ".png")
  {
    var file := FileBaseName(p, env) + ".png";
    assert file[|file| - 4..] == ".png";
    if target == Some("s3") then UploadToS3(bucket, file, "public-read", "image/png")
    else
      var path := LocalSnapshotDir + file;
      assert path[..|LocalSnapshotDir|] == LocalSnapshotDir;
      assert path[|path| - 4..] == ".png";
      WriteLocalFile(path)
  }

  /** The S3 URL the comparison reads is the fixed bucket URL followed by the key the upload writes. */
  lemma S3UrlMatchesUploadKey(p: Poster, bucket: string, env: Env)
    ensures var a := SavePosterToTarget(Some("s3"), p, bucket, env);
            a.UploadToS3? && GetS3Url(p, env) == SnapshotBucketUrl + a.key
  {
  }

  /** A local save uses the same file name as the upload key, under images/snapshots/. */
  lemma LocalFileMatchesUploadKey(target: Option<string>, p: Poster, bucket: string, env: Env)
    requires target != Some("s3")
    ensures var local := SavePosterToTarget(target, p, bucket, env);
            var upload := SavePosterToTarget(Some("s3"), p, bucket, env);
            local.WriteLocalFile? && upload.UploadToS3? && local.path == LocalSnapshotDir + upload.key
  {
  }
}

=== FILE: locations.dfy ===
/**
 The fixed catalogue of map locations the snapshots are taken of
 (src/locations.js), and lookup by id as `_.find(locations, l => l.id === id)`.
 */
module Locations {
  import opened Seqs

  datatype Location = Location(
    id: string,
    lat: real,
    lng: real,
    labelsEnabled: bool,
    labelHeader: string,
    labelSmallHeader: string)

  /** The five catalogue entries, in declaration order. */
  const Catalog: seq<Location> := [
    Location("hki_c", 60.1697, 24.9397, true, "Helsinki", "Finland"),
    Location("hki_la", 60.1654, 24.8972, true, "00200", "Finland"),
    Location("hki_lab", 60.2878, 24.9810, true, "00200", "Finland"),
    Location("nrjvi", 60.4718, 24.8125, true, "Nurmijärvi", "Finland"),
    Location("tokyo_c", 35.68, 139.76, true, "東京都", "Tōkyō-to")
  ]

  function IdOf(l: Location): string
  {
    l.id
  }

  /** `_.map(locations, 'id')`. */
  function CatalogIds(): (ids: seq<string>)
    ensures |ids| == |Catalog|
    ensures forall i :: 0 <= i < |Catalog| ==> ids[i] == Catalog[i].id
  {
    Map(Catalog, IdOf)
  }

  /** Index of the first location in `ls` whose id is `id`, or `|ls|` when there is none. */
  function FirstIndex(ls: seq<Location>, id: string): (k: nat)
    ensures k <= |ls|
    ensures forall j :: 0 <= j < k ==> ls[j].id != id
    ensures k < |ls| ==> ls[k].id == id
    decreases |ls|
  {
    if ls == [] then 0
    else if ls[0].id == id then 0
    else 1 + FirstIndex(ls[1..], id)
  }

  /** The first location in `ls` whose id is `id`. */
  function FindIn(ls: seq<Location>, id: string): (r: Option<Location>)
    ensures r.Some? <==> exists i :: 0 <= i < |ls| && ls[i].id == id
    ensures r.Some? ==> r.value in ls && r.value.id == id
  {
    var k := FirstIndex(ls, id);
    if k < |ls| then Some(ls[k]) else None
  }

  function Find(id: string): (r: Option<Location>)
    ensures r.Some? <==> id in CatalogIds()
    ensures r.Some? ==> r.value in Catalog && r.value.id == id
  {
    var ids := CatalogIds();
    assert (exists i :: 0 <= i < |Catalog| && Catalog[i].id == id) <==> id in ids by {
      if id in ids {
        var i :| 0 <= i < |ids| && ids[i] == id;
        assert Catalog[i].id == id;
      }
    }
    FindIn(Catalog, id)
  }

  lemma CatalogIdsValue()
    ensures CatalogIds() == ["hki_c", "hki_la", "hki_lab", "nrjvi", "tokyo_c"]
  {
  }

  /** Catalogue ids are pairwise distinct, so lookup by id is unambiguous. */
  lemma CatalogIdsDistinct()
    ensures forall i, j :: 0 <= i < j < |Catalog| ==> Catalog[i].id != Catalog[j].id
  {
  }

  /** Looking up the id of any catalogue entry gives back that entry. */
  lemma FindCatalogEntry(i: nat)
    requires i < |Catalog|
    ensures Find(Catalog[i].id) == Some(Catalog[i])
  {
    CatalogIdsDistinct();
    assert Catalog[i].id in CatalogIds();
  }

  /** `hki_la` and `hki_lab` are different places that share the label header `00200`. */
  lemma SharedLabelHeader()
    ensures Catalog[1].id == "hki_la" && Catalog[2].id == "hki_lab"
    ensures Catalog[1].labelHeader == Catalog[2].labelHeader == "00200"
    ensures Catalog[1].lat != Catalog[2].lat
  {
  }
}

=== FILE: posters.dfy ===
/**
 The poster matrix of src/posters.js: every service name selects a list of
 axis groups, every group is expanded by the 8-way cartesian product
 (locationIds, labelsEnabledFlags, formats, posterStyles, mapStyles, sizes,
 orientations, zoomLevels), every combination is joined with its catalogue
 location, its map bounds and its coordinate label, the group's optional
 filter is applied, and the groups are concatenated in order.
 */
module Posters {
  import opened Seqs
  import opened Strings
  import opened Cartesian
  import opened Locations
  import opened Sizes

  /** A component of a product tuple: the axes hold strings, booleans and integers. */
  datatype Value = Str(s: string) | Bool(b: bool) | Int(i: int)

  /** The optional `filter` of an axis group. */
  datatype GroupFilter =
    | KeepAll
      /** render-map: drop non-centre locations below zoom level 15 */
    | CenterOrHighZoom

  datatype AxisGroup = AxisGroup(
    posterStyles: seq<string>,
    mapStyles: seq<string>,
    sizes: seq<string>,
    orientations: seq<string>,
    locationIds: seq<string>,
    zoomLevels: seq<int>,
    formats: seq<string>,
    labelsEnabledFlags: seq<bool>,
    filter: GroupFilter)

  /** One element of the product of a group, named by axis. */
  datatype Combination = Combination(
    locationId: string,
    labelsEnabled: bool,
    format: string,
    posterStyle: string,
    mapStyle: string,
    size: string,
    orientation: string,
    zoomLevel: int)

  datatype Bounds = Bounds(swLat: real, swLng: real, neLat: real, neLng: real)

  /**
   A generated poster: the location's fields without its `id`, the bounds,
   the combination's fields, and the coordinate label.
   */
  datatype Poster = Poster(
    lat: real,
    lng: real,
    labelsEnabled: bool,
    labelHeader: string,
    labelSmallHeader: string,
    bounds: Bounds,
    posterStyle: string,
    mapStyle: string,
    format: string,
    size: string,
    orientation: string,
    zoomLevel: int,
    locationId: string,
    labelText: string)

  /**
   Library behaviour the generator calls but that is not modelled:
   `getLatLngBounds` (spherical Mercator: centre lat, lng, zoom, viewport
   width and height in pixels) and `Number.prototype.toFixed(3)`.
   */
  datatype Libraries = Libraries(
    latLngBounds: (real, real, int, Pixels, Pixels) -> Bounds,
    toFixed3: real -> string)

  datatype PosterError =
    | LocationNotFound(id: string)
    | InvalidSize(size: string)

  /** `_.range(lo, hi)`. */
  function Range(lo: int, hi: int): (r: seq<int>)
    ensures |r| == if lo < hi then hi - lo else 0
    ensures forall i :: 0 <= i < |r| ==> r[i] == lo + i
  {
    seq(if lo < hi then hi - lo else 0, i => lo + i)
  }

  const DefaultMainLocationId: string := "tokyo_c"

  /** `_.merge({ mainLocationId: 'tokyo_c' }, opts)`: an absent option keeps the default. */
  function MainLocation(mainLocationId: Option<string>): string
  {
    if mainLocationId.Some? then mainLocationId.value else DefaultMainLocationId
  }

  const AllPosterStyles: seq<string> := ["sharp", "classic", "sans", "bw"]
  const AllSizes: seq<string> := ["30x40cm", "50x70cm", "70x100cm", "12x18inch", "18x24inch", "24x36inch"]

  function RenderGroups(main: string): seq<AxisGroup>
  {
    [ AxisGroup(AllPosterStyles, ["bw"], AllSizes, ["landscape", "portrait"], [main], [11], ["png"], [true], KeepAll),
      AxisGroup(["classic"], ["bw"], ["70x100cm"], ["portrait"], [main], [11], ["pdf", "png", "jpg"], [true, false], KeepAll),
      AxisGroup(["classic"], ["bw"], ["50x70cm"], ["portrait"], [main], [14], ["svg"], [true, false], KeepAll) ]
  }

  function RenderMapGroup(): AxisGroup
  {
    AxisGroup(["null"], ["bw", "black", "gray", "petrol", "contrast-black", "bg-black", "bg-sunset"], ["A6"],
              ["portrait"], CatalogIds(), Range(6, 17), ["png"], [true], CenterOrHighZoom)
  }

  function TileGroup(main: string): AxisGroup
  {
    AxisGroup(["bw"], ["bw", "petrol", "black", "contrast-black"], ["30x40cm"], ["portrait"], [main], [11], ["png"],
              [true], KeepAll)
  }

  function TestReportGroup(): AxisGroup
  {
    AxisGroup(["classic"], ["bw"], ["30x40cm"], ["portrait", "landscape"], ["hki_c"], [12], ["png"], [true], KeepAll)
  }

  function PlacementGroup(main: string): AxisGroup
  {
    AxisGroup(["bw"], ["bw", "black", "petrol"], ["30x40cm"], ["portrait"], [main], [11], ["png"], [true], KeepAll)
  }

  function DefaultGroup(): AxisGroup
  {
    AxisGroup(AllPosterStyles, ["bw", "gray", "black", "petrol"], AllSizes, ["landscape", "portrait"], CatalogIds(),
              Range(4, 16), ["png"], [true], KeepAll)
  }

  /** The service names with a case of their own; every other name, 'all' included, gets the default group. */
  const NamedServices: seq<string> := ["render", "render-map", "tile", "test-report", "minimal", "placement"]

  /** `getCombinations(service, opts)`. */
  function GetCombinations(service: string, mainLocationId: Option<string>): (groups: seq<AxisGroup>)
    ensures |groups| >= 1
    ensures service !in NamedServices ==> groups == [DefaultGroup()]
    ensures service in ["render", "tile", "minimal", "placement"]
            ==> forall i :: 0 <= i < |groups| ==> groups[i].locationIds == [MainLocation(mainLocationId)]
    ensures service in ["render", "tile", "minimal", "placement"] && mainLocationId.None?
            ==> forall i :: 0 <= i < |groups| ==> groups[i].locationIds == ["tokyo_c"]
    ensures service in ["render", "tile", "minimal", "placement"] && mainLocationId.Some?
            ==> forall i :: 0 <= i < |groups| ==> groups[i].locationIds == [mainLocationId.value]
  {
    var main := MainLocation(mainLocationId);
    if service == "render" then RenderGroups(main)
    else if service == "render-map" then [RenderMapGroup()]
    else if service == "tile" then [TileGroup(main)]
    else if service == "test-report" then [TestReportGroup()]
    else if service == "minimal" || service == "placement" then [PlacementGroup(main)]
    else [DefaultGroup()]
  }

  // Tuples of the product and their decoding into combinations.

  function StrValue(s: string): Value { Str(s) }
  function BoolValue(b: bool): Value { Bool(b) }
  function IntValue(i: int): Value { Int(i) }

  function AsStr(v: Value): string { if v.Str? then v.s else "" }
  function AsBool(v: Value): bool { v.Bool? && v.b }
  function AsInt(v: Value): int { if v.Int? then v.i else 0 }

  /** The eight axes in the order they are handed to the cartesian product. */
  function Axes(g: AxisGroup): (axes: seq<seq<Value>>)
    ensures |axes| == 8
  {
    [ Map(g.locationIds, StrValue),
      Map(g.labelsEnabledFlags, BoolValue),
      Map(g.formats, StrValue),
      Map(g.posterStyles, StrValue),
      Map(g.mapStyles, StrValue),
      Map(g.sizes, StrValue),
      Map(g.orientations, StrValue),
      Map(g.zoomLevels, IntValue) ]
  }

  function At(t: seq<Value>, i: nat): Value
  {
    if i < |t| then t[i] else Int(0)
  }

  /** Destructuring `[locationId, labelsEnabled, format, posterStyle, mapStyle, size, orientation, zoomLevel]`. */
  function Decode(t: seq<Value>): Combination
  {
    Combination(AsStr(At(t, 0)), AsBool(At(t, 1)), AsStr(At(t, 2)), AsStr(At(t, 3)), AsStr(At(t, 4)),
                AsStr(At(t, 5)), AsStr(At(t, 6)), AsInt(At(t, 7)))
  }

  function Encode(c: Combination): seq<Value>
  {
    [ Str(c.locationId), Bool(c.labelsEnabled), Str(c.format), Str(c.posterStyle), Str(c.mapStyle), Str(c.size),
      Str(c.orientation), Int(c.zoomLevel) ]
  }

  /** The combinations of a group, in product order. */
  function Combinations(g: AxisGroup): seq<Combination>
  {
    Map(Product(Axes(g)), Decode)
  }

  /** Every field of `c` is drawn from the corresponding axis of `g`. */
  predicate InAxes(c: Combination, g: AxisGroup)
  {
    && c.locationId in g.locationIds
    && c.labelsEnabled in g.labelsEnabledFlags
    && c.format in g.formats
    && c.posterStyle in g.posterStyles
    && c.mapStyle in g.mapStyles
    && c.size in g.sizes
    && c.orientation in g.orientations
    && c.zoomLevel in g.zoomLevels
  }

  // Building one poster.

  function Abs(x: real): (r: real)
    ensures r >= 0.0 && (r == x || r == -x)
  {
    if x < 0.0 then -x else x
  }

  /** The hemisphere letter: `positive` for a strictly positive coordinate, `negative` otherwise (zero included). */
  function Hemisphere(x: real, positive: char, negative: char): (c: char)
    ensures c == positive <==> (x > 0.0 || positive == negative)
  {
    if x > 0.0 then positive else negative
  }

  /** `prettyLabel`: `<|lat|>°<N or S> / <|lng|>°<E or W>`. */
  function PrettyLabel(lat: real, lng: real, toFixed3: real -> string): (r: string)
    ensures var a := toFixed3(Abs(lat));
            var b := toFixed3(Abs(lng));
            && |r| == |a| + |b| + 7
            && r[..|a|] == a && r[|a|] == '°'
            && (r[|a| + 1] == 'N' <==> lat > 0.0) && (r[|a| + 1] == 'S' <==> lat <= 0.0)
            && r[|a| + 2..|a| + 5] == " / " && r[|a| + 5..|r| - 2] == b && r[|r| - 2] == '°'
            && (r[|r| - 1] == 'E' <==> lng > 0.0) && (r[|r| - 1] == 'W' <==> lng <= 0.0)
  {
    var a := toFixed3(Abs(lat));
    var b := toFixed3(Abs(lng));
    var r := a + "°" + [Hemisphere(lat, 'N', 'S')] + " / " + b + "°" + [Hemisphere(lng, 'E', 'W')];
    assert r[..|a|] == a;
    assert r[|a| + 2..|a| + 5] == " / ";
    assert r[|a| + 5..|r| - 2] == b;
    r
  }

  /**
   One element of `postersBatch` followed by its `labelText`: the location is
   looked up first (missing: "Location not found"), then the size is parsed
   for the bounds (unparseable: the size error propagates).
   */
  function BuildPoster(c: Combination, libs: Libraries): Result<Poster, PosterError>
  {
    match Find(c.locationId)
    case None => Err(LocationNotFound(c.locationId))
    case Some(location) =>
      match ParseSizeToPixelDimensions(SizeText(c.size), c.orientation)
      case Err(_) => Err(InvalidSize(c.size))
      case Ok(dimensions) =>
        var bounds := libs.latLngBounds(location.lat, location.lng, c.zoomLevel, dimensions.width, dimensions.height);
        Ok(Poster(location.lat, location.lng, c.labelsEnabled, location.labelHeader, location.labelSmallHeader, bounds,
                  c.posterStyle, c.mapStyle, c.format, c.size, c.orientation, c.zoomLevel, location.id,
                  PrettyLabel(location.lat, location.lng, libs.toFixed3)))
  }

  /**
   A combination builds exactly when its location is in the catalogue and its
   size parses; the location is checked first. A built poster carries the
   combination's fields and the catalogue entry's place fields.
   */
  lemma BuildPosterSpec(c: Combination, libs: Libraries)
    ensures var r := BuildPoster(c, libs);
            && (r.Ok? <==> c.locationId in CatalogIds() && ValidSize(c.size))
            && (c.locationId !in CatalogIds() ==> r == Err(LocationNotFound(c.locationId)))
            && (c.locationId in CatalogIds() && r.Err? ==> r == Err(InvalidSize(c.size)))
            && (r.Ok? ==> Carries(r.value, c) && PlacedAt(r.value, Find(c.locationId).value))
            && (r.Ok? ==> r.value.labelText == PrettyLabel(r.value.lat, r.value.lng, libs.toFixed3))
            && (r.Ok? ==> var dims := ParseSizeToPixelDimensions(SizeText(c.size), c.orientation).value;
                          r.value.bounds == libs.latLngBounds(r.value.lat, r.value.lng, c.zoomLevel, dims.width, dims.height))
  {
  }

  /** A size `parseSizeToPixelDimensions` accepts (in either orientation). */
  ghost predicate ValidSize(size: string)
  {
    SizeInInches(size).Some? || MatchesSizePattern(size)
  }

  /** The poster carries exactly the combination's eight fields; `labelsEnabled` is the axis value. */
  predicate Carries(p: Poster, c: Combination)
  {
    && p.locationId == c.locationId
    && p.labelsEnabled == c.labelsEnabled
    && p.format == c.format
    && p.posterStyle == c.posterStyle
    && p.mapStyle == c.mapStyle
    && p.size == c.size
    && p.orientation == c.orientation
    && p.zoomLevel == c.zoomLevel
  }

  /** The poster's place fields are the catalogue entry's. */
  predicate PlacedAt(p: Poster, l: Location)
  {
    p.lat == l.lat && p.lng == l.lng && p.labelHeader == l.labelHeader && p.labelSmallHeader == l.labelSmallHeader
  }

  function Builder(libs: Libraries): Combination -> Result<Poster, PosterError>
  {
    (c: Combination) => BuildPoster(c, libs)
  }

  /** `_.map` over a group's combinations: the first failing combination's error, or every poster in order. */
  function Built(g: AxisGroup, libs: Libraries): Result<seq<Poster>, PosterError>
  {
    MapResult(Combinations(g), Builder(libs))
  }

  const CenterLocationIds: seq<string> := ["hki_c", "tokyo_c"]

  predicate Keeps(f: GroupFilter, p: Poster)
  {
    match f
    case KeepAll => true
    case CenterOrHighZoom => p.locationId in CenterLocationIds || p.zoomLevel >= 15
  }

  function Keep(f: GroupFilter): Poster -> bool
  {
    (p: Poster) => Keeps(f, p)
  }

  function GroupKeep(g: AxisGroup): Poster -> bool
  {
    Keep(g.filter)
  }

  function GroupBuilder(libs: Libraries): AxisGroup -> Result<seq<Poster>, PosterError>
  {
    (g: AxisGroup) => Built(g, libs)
  }

  // Assembling the groups, generic in what a group is and how it is built.

  function OrEmpty<P, E>(r: Result<seq<P>, E>): seq<P>
  {
    if r.Ok? then r.value else []
  }

  /** How many elements of a group's batch its filter keeps. */
  function KeptBy<G, P, E>(build: G -> Result<seq<P>, E>, keep: G -> P -> bool): G -> int
  {
    (g: G) => Count(OrEmpty(build(g)), keep(g))
  }

  /** Every group's unfiltered batch, laid end to end. */
  function Unfiltered<G, P, E>(groups: seq<G>, build: G -> Result<seq<P>, E>): seq<P>
    decreases |groups|
  {
    if groups == [] then [] else OrEmpty(build(groups[0])) + Unfiltered(groups[1..], build)
  }

  /** Build each group (the first error aborts everything), filter its batch, append in group order. */
  function Assemble<G, P, E>(groups: seq<G>, build: G -> Result<seq<P>, E>, keep: G -> P -> bool): Result<seq<P>, E>
    decreases |groups|
  {
    if groups == [] then Ok([])
    else
      match build(groups[0])
      case Err(e) => Err(e)
      case Ok(ps) =>
        match Assemble(groups[1..], build, keep)
        case Err(e) => Err(e)
        case Ok(rest) => Ok(Filter(ps, keep(groups[0])) + rest)
  }

  lemma {:induction false} AssembleOk<G, P, E>(groups: seq<G>, build: G -> Result<seq<P>, E>, keep: G -> P -> bool)
    ensures Assemble(groups, build, keep).Ok? <==> forall i :: 0 <= i < |groups| ==> build(groups[i]).Ok?
    decreases |groups|
  {
    if groups != [] {
      AssembleOk(groups[1..], build, keep);
      forall i | 1 <= i < |groups|
        ensures groups[i] == groups[1..][i - 1]
      {
      }
    }
  }

  lemma {:induction false} AssembleFirstError<G, P, E>(groups: seq<G>, build: G -> Result<seq<P>, E>,
                                                      keep: G -> P -> bool)
    requires Assemble(groups, build, keep).Err?
    ensures exists i :: 0 <= i < |groups| && build(groups[i]) == Err(Assemble(groups, build, keep).error)
                        && forall j :: 0 <= j < i ==> build(groups[j]).Ok?
    decreases |groups|
  {
    if build(groups[0]).Ok? {
      AssembleFirstError(groups[1..], build, keep);
      var i :| 0 <= i < |groups[1..]| && build(groups[1..][i]) == Err(Assemble(groups[1..], build, keep).error)
               && forall j :: 0 <= j < i ==> build(groups[1..][j]).Ok?;
      forall j | 1 <= j < i + 1
        ensures build(groups[j]).Ok?
      {
        assert groups[j] == groups[1..][j - 1];
      }
      assert groups[i + 1] == groups[1..][i];
    }
  }

  lemma {:induction false} AssembleLength<G, P, E>(groups: seq<G>, build: G -> Result<seq<P>, E>, keep: G -> P -> bool)
    requires Assemble(groups, build, keep).Ok?
    ensures |Assemble(groups, build, keep).value| == Sum(groups, KeptBy(build, keep))
    decreases |groups|
  {
    if groups != [] {
      AssembleLength(groups[1..], build, keep);
    }
  }

  lemma {:induction false} AssembleSubsequence<G, P, E>(groups: seq<G>, build: G -> Result<seq<P>, E>,
                                                       keep: G -> P -> bool)
    requires Assemble(groups, build, keep).Ok?
    ensures IsSubsequence(Assemble(groups, build, keep).value, Unfiltered(groups, build))
    decreases |groups|
  {
    if groups != [] {
      var ps := build(groups[0]).value;
      AssembleSubsequence(groups[1..], build, keep);
      FilterSpec(ps, keep(groups[0]));
      SubsequenceAppend(Filter(ps, keep(groups[0])), ps,
                        Assemble(groups[1..], build, keep).value, Unfiltered(groups[1..], build));
    }
  }

  lemma {:induction false} AssembleMember<G, P, E>(groups: seq<G>, build: G -> Result<seq<P>, E>,
                                                  keep: G -> P -> bool, p: P)
    requires Assemble(groups, build, keep).Ok?
    ensures p in Assemble(groups, build, keep).value <==>
              exists i :: 0 <= i < |groups| && p in OrEmpty(build(groups[i])) && keep(groups[i])(p)
    decreases |groups|
  {
    if groups != [] {
      var ps := build(groups[0]).value;
      var kept := Filter(ps, keep(groups[0]));
      var rest := Assemble(groups[1..], build, keep).value;
      AssembleMember(groups[1..], build, keep, p);
      FilterSpec(ps, keep(groups[0]));
      assert Assemble(groups, build, keep).value == kept + rest;
      if p in kept {
        assert p in OrEmpty(build(groups[0])) && keep(groups[0])(p);
      }
      if p in rest {
        var i :| 0 <= i < |groups[1..]| && p in OrEmpty(build(groups[1..][i])) && keep(groups[1..][i])(p);
        assert groups[1..][i] == groups[i + 1];
      }
      if exists i :: 0 <= i < |groups| && p in OrEmpty(build(groups[i])) && keep(groups[i])(p) {
        var i :| 0 <= i < |groups| && p in OrEmpty(build(groups[i])) && keep(groups[i])(p);
        if i == 0 {
          assert p in kept;
        } else {
          assert groups[1..][i - 1] == groups[i];
        }
      }
    }
  }

  /** Assembling two lists of groups one after the other gives the two results one after the other. */
  lemma {:induction false} AssembleAppend<G, P, E>(a: seq<G>, b: seq<G>, build: G -> Result<seq<P>, E>,
                                                  keep: G -> P -> bool)
    ensures Assemble(a + b, build, keep).Ok? <==> Assemble(a, build, keep).Ok? && Assemble(b, build, keep).Ok?
    ensures Assemble(a + b, build, keep).Ok? ==>
              Assemble(a + b, build, keep).value == Assemble(a, build, keep).value + Assemble(b, build, keep).value
    decreases |a|
  {
    if a == [] {
      assert a + b == b;
    } else {
      assert (a + b)[0] == a[0];
      assert (a + b)[1..] == a[1..] + b;
      AssembleAppend(a[1..], b, build, keep);
      if build(a[0]).Ok? && Assemble(a + b, build, keep).Ok? {
        var kept := Filter(build(a[0]).value, keep(a[0]));
        assert kept + (Assemble(a[1..], build, keep).value + Assemble(b, build, keep).value)
            == (kept + Assemble(a[1..], build, keep).value) + Assemble(b, build, keep).value;
      }
    }
  }

  /** The body of `getPosters` over a list of groups. */
  function PostersOf(groups: seq<AxisGroup>, libs: Libraries): Result<seq<Poster>, PosterError>
  {
    Assemble(groups, GroupBuilder(libs), GroupKeep)
  }

  /** `getPosters(service, opts)`. */
  function GetPosters(service: string, mainLocationId: Option<string>, libs: Libraries): Result<seq<Poster>, PosterError>
  {
    PostersOf(GetCombinations(service, mainLocationId), libs)
  }

  // Properties of the combinations of one group.

  lemma StrAxis(xs: seq<string>, v: Value)
    ensures v in Map(xs, StrValue) <==> v.Str? && v.s in xs
  {
    MapMember(xs, StrValue, v);
  }

  lemma BoolAxis(xs: seq<bool>, v: Value)
    ensures v in Map(xs, BoolValue) <==> v.Bool? && v.b in xs
  {
    MapMember(xs, BoolValue, v);
  }

  lemma IntAxis(xs: seq<int>, v: Value)
    ensures v in Map(xs, IntValue) <==> v.Int? && v.i in xs
  {
    MapMember(xs, IntValue, v);
  }

  /** A tuple of the product decodes to a combination drawn from the axes, and encodes back to itself. */
  lemma TupleDecodes(g: AxisGroup, t: seq<Value>)
    requires t in Product(Axes(g))
    ensures InAxes(Decode(t), g) && Encode(Decode(t)) == t
  {
    var axes := Axes(g);
    ProductMember(axes, t);
    assert t[0] in axes[0] && t[1] in axes[1] && t[2] in axes[2] && t[3] in axes[3];
    assert t[4] in axes[4] && t[5] in axes[5] && t[6] in axes[6] && t[7] in axes[7];
    StrAxis(g.locationIds, t[0]);
    BoolAxis(g.labelsEnabledFlags, t[1]);
    StrAxis(g.formats, t[2]);
    StrAxis(g.posterStyles, t[3]);
    StrAxis(g.mapStyles, t[4]);
    StrAxis(g.sizes, t[5]);
    StrAxis(g.orientations, t[6]);
    IntAxis(g.zoomLevels, t[7]);
  }

  /** The combinations of a group are exactly the records whose every field comes from its axis. */
  lemma CombinationMember(g: AxisGroup, c: Combination)
    ensures c in Combinations(g) <==> InAxes(c, g)
  {
    var tuples := Product(Axes(g));
    MapMember(tuples, Decode, c);
    if c in Combinations(g) {
      var t :| t in tuples && c == Decode(t);
      TupleDecodes(g, t);
    }
    if InAxes(c, g) {
      var t := Encode(c);
      var axes := Axes(g);
      StrAxis(g.locationIds, t[0]);
      BoolAxis(g.labelsEnabledFlags, t[1]);
      StrAxis(g.formats, t[2]);
      StrAxis(g.posterStyles, t[3]);
      StrAxis(g.mapStyles, t[4]);
      StrAxis(g.sizes, t[5]);
      StrAxis(g.orientations, t[6]);
      IntAxis(g.zoomLevels, t[7]);
      assert forall i :: 0 <= i < |t| ==> t[i] in axes[i] by {
        forall i | 0 <= i < |t|
          ensures t[i] in axes[i]
        {
          assert i in {0, 1, 2, 3, 4, 5, 6, 7};
        }
      }
      ProductMember(axes, t);
      assert Decode(t) == c;
    }
  }

  /** The product of a group's eight axis lengths. */
  function AxisProduct(g: AxisGroup): int
  {
    |g.locationIds| * (|g.labelsEnabledFlags| * (|g.formats| * (|g.posterStyles|
      * (|g.mapStyles| * (|g.sizes| * (|g.orientations| * |g.zoomLevels|))))))
  }

  /** A group has as many combinations as the product of its eight axis lengths. */
  lemma CombinationCount(g: AxisGroup)
    ensures |Combinations(g)| == AxisProduct(g)
  {
    var axes := Axes(g);
    ProductLength(axes);
    assert axes[7..][1..] == [];
    assert Size(axes[7..]) == |axes[7]|;
    assert axes[6..][1..] == axes[7..];
    assert Size(axes[6..]) == |axes[6]| * Size(axes[7..]);
    assert axes[5..][1..] == axes[6..];
    assert Size(axes[5..]) == |axes[5]| * Size(axes[6..]);
    assert axes[4..][1..] == axes[5..];
    assert Size(axes[4..]) == |axes[4]| * Size(axes[5..]);
    assert axes[3..][1..] == axes[4..];
    assert Size(axes[3..]) == |axes[3]| * Size(axes[4..]);
    assert axes[2..][1..] == axes[3..];
    assert Size(axes[2..]) == |axes[2]| * Size(axes[3..]);
    assert axes[1..][1..] == axes[2..];
    assert Size(axes[1..]) == |axes[1]| * Size(axes[2..]);
  }

  /** A group builds when all its locations are catalogued and all its sizes parse; poster i comes from combination i. */
  lemma GroupBuilds(g: AxisGroup, libs: Libraries)
    requires forall id :: id in g.locationIds ==> id in CatalogIds()
    requires forall size :: size in g.sizes ==> ValidSize(size)
    ensures Built(g, libs).Ok?
    ensures |Built(g, libs).value| == |Combinations(g)|
    ensures forall i :: 0 <= i < |Combinations(g)| ==> BuildPoster(Combinations(g)[i], libs) == Ok(Built(g, libs).value[i])
  {
    var cs := Combinations(g);
    forall i | 0 <= i < |cs|
      ensures Builder(libs)(cs[i]).Ok?
    {
      CombinationMember(g, cs[i]);
      BuildPosterSpec(cs[i], libs);
    }
    MapResultOk(cs, Builder(libs));
  }

  /** A group whose first location is not in the catalogue fails with "Location not found" for that id. */
  lemma GroupMissingLocation(g: AxisGroup, libs: Libraries)
    requires |g.locationIds| == 1 && g.locationIds[0] !in CatalogIds()
    requires |Combinations(g)| > 0
    ensures Built(g, libs) == Err(LocationNotFound(g.locationIds[0]))
  {
    var cs := Combinations(g);
    CombinationMember(g, cs[0]);
    assert cs[0].locationId == g.locationIds[0];
    BuildMissing(cs[0], libs);
    assert Builder(libs)(cs[0]) == Err(LocationNotFound(g.locationIds[0]));
  }

  /** A built poster sits at the catalogue entry of its combination's location. */
  lemma BuiltPlacement(c: Combination, libs: Libraries, p: Poster)
    requires BuildPoster(c, libs) == Ok(p)
    ensures Find(c.locationId).Some? && Carries(p, c) && PlacedAt(p, Find(c.locationId).value)
  {
  }

  /**
   A built poster's label names its own hemispheres: 'N' exactly when its
   latitude is positive, 'E' exactly when its longitude is.
   */
  lemma BuiltLabelHemispheres(c: Combination, libs: Libraries, p: Poster)
    requires BuildPoster(c, libs) == Ok(p)
    ensures var a := libs.toFixed3(Abs(p.lat));
            && |p.labelText| > |a| + 1
            && (p.labelText[|a| + 1] == 'N' <==> p.lat > 0.0)
            && (p.labelText[|a| + 1] == 'S' <==> p.lat <= 0.0)
            && (p.labelText[|p.labelText| - 1] == 'E' <==> p.lng > 0.0)
            && (p.labelText[|p.labelText| - 1] == 'W' <==> p.lng <= 0.0)
  {
    BuildPosterSpec(c, libs);
  }

  lemma BuildMissing(c: Combination, libs: Libraries)
    requires c.locationId !in CatalogIds()
    ensures BuildPoster(c, libs) == Err(LocationNotFound(c.locationId))
  {
  }

  // Service-level properties.

  /** The sizes the groups use are all accepted by the size parser. */
  lemma StandardSizesValid()
    ensures forall size :: size in AllSizes ==> ValidSize(size)
    ensures ValidSize("A6")
  {
    forall i | 0 <= i < |AllSizes|
      ensures ValidSize(AllSizes[i])
    {
      SizeTokenValid(i);
    }
    NamedSizeValid();
  }

  /** The sizes of `AllSizes`, split into width digits, height digits and unit. */
  const AllSizeTokens: seq<(string, string, string)> :=
    [("30", "40", "cm"), ("50", "70", "cm"), ("70", "100", "cm"),
     ("12", "18", "inch"), ("18", "24", "inch"), ("24", "36", "inch")]

  lemma SizeTokenValid(i: nat)
    requires i < |AllSizes|
    ensures ValidSize(AllSizes[i])
  {
    var (a, b, unit) := AllSizeTokens[i];
    TokenValid(a, b, unit, AllSizes[i]);
  }

  lemma NamedSizeValid()
    ensures ValidSize("A6")
  {
  }

  lemma TokenValid(a: string, b: string, unit: string, s: string)
    requires a != [] && AllDigits(a) && b != [] && AllDigits(b)
    requires unit == "cm" || unit == "inch"
    requires s == a + "x" + b + unit
    ensures ValidSize(s)
  {
    WellFormedMatches(a, b, unit, s);
  }

  /** Every location of the group is catalogued and every size parses. */
  ghost predicate GroupValid(g: AxisGroup)
  {
    && (forall id :: id in g.locationIds ==> id in CatalogIds())
    && (forall size :: size in g.sizes ==> ValidSize(size))
  }

  lemma TestReportGroupValid()
    ensures GroupValid(TestReportGroup())
  {
    StandardSizesValid();
    assert CatalogIds()[0] == "hki_c";
  }

  lemma DefaultGroupValid()
    ensures GroupValid(DefaultGroup())
  {
    StandardSizesValid();
  }

  lemma RenderMapGroupValid()
    ensures GroupValid(RenderMapGroup())
  {
    StandardSizesValid();
  }

  /** The groups built around a catalogued main location are valid. */
  lemma MainGroupsValid(main: string)
    requires main in CatalogIds()
    ensures GroupValid(TileGroup(main)) && GroupValid(PlacementGroup(main))
    ensures forall g :: g in RenderGroups(main) ==> GroupValid(g)
  {
    StandardSizesValid();
  }

  /** An unfiltered group whose locations and sizes are valid contributes all of its combinations. */
  lemma KeepAllGroupCount(g: AxisGroup, libs: Libraries)
    requires g.filter == KeepAll && GroupValid(g)
    ensures Built(g, libs).Ok?
    ensures KeptBy(GroupBuilder(libs), GroupKeep)(g) == AxisProduct(g)
  {
    GroupBuilds(g, libs);
    var ps := Built(g, libs).value;
    CountAll(ps, Keep(KeepAll));
    CombinationCount(g);
    assert GroupBuilder(libs)(g) == Built(g, libs);
    assert GroupKeep(g) == Keep(KeepAll);
    assert KeptBy(GroupBuilder(libs), GroupKeep)(g) == Count(ps, Keep(KeepAll));
  }

  /** Unfiltered valid groups build, and yield the sum of their axis products. */
  lemma KeepAllGroupsCount(groups: seq<AxisGroup>, libs: Libraries)
    requires forall g :: g in groups ==> g.filter == KeepAll && GroupValid(g)
    ensures PostersOf(groups, libs).Ok?
    ensures |PostersOf(groups, libs).value| == Sum(groups, AxisProduct)
  {
    var k := KeptBy(GroupBuilder(libs), GroupKeep);
    forall i | 0 <= i < |groups|
      ensures GroupBuilder(libs)(groups[i]).Ok?
    {
      assert groups[i] in groups;
      KeepAllGroupCount(groups[i], libs);
    }
    var ap: AxisGroup -> int := AxisProduct;
    forall g | g in groups
      ensures k(g) == ap(g)
    {
      KeepAllGroupCount(g, libs);
      assert ap(g) == AxisProduct(g);
    }
    AssembleOk(groups, GroupBuilder(libs), GroupKeep);
    AssembleLength(groups, GroupBuilder(libs), GroupKeep);
    SumPointwise(groups, k, ap);
  }

  /** 'minimal' and 'placement' select the same group. */
  lemma MinimalIsPlacement(mainLocationId: Option<string>)
    ensures GetCombinations("minimal", mainLocationId) == GetCombinations("placement", mainLocationId)
  {
  }

  /** 'all' and every unrecognised service name select the default group, whatever the main location. */
  lemma UnknownServiceIsDefault(service: string, m1: Option<string>, m2: Option<string>)
    requires service == "all" || service !in NamedServices
    ensures GetCombinations(service, m1) == GetCombinations(service, m2) == [DefaultGroup()]
  {
  }

  // Which groups each service name selects, one service at a time.

  lemma SelectRender(mainLocationId: Option<string>)
    ensures GetCombinations("render", mainLocationId) == RenderGroups(MainLocation(mainLocationId))
  {
  }

  lemma SelectRenderMap(mainLocationId: Option<string>)
    ensures GetCombinations("render-map", mainLocationId) == [RenderMapGroup()]
  {
  }

  lemma SelectTile(mainLocationId: Option<string>)
    ensures GetCombinations("tile", mainLocationId) == [TileGroup(MainLocation(mainLocationId))]
  {
  }

  lemma SelectTestReport(mainLocationId: Option<string>)
    ensures GetCombinations("test-report", mainLocationId) == [TestReportGroup()]
  {
  }

  lemma SelectPlacement(service: string, mainLocationId: Option<string>)
    requires service == "placement" || service == "minimal"
    ensures GetCombinations(service, mainLocationId) == [PlacementGroup(MainLocation(mainLocationId))]
  {
  }

  // The axis products of the fixed groups.

  lemma TileSize(main: string)
    ensures AxisProduct(TileGroup(main)) == 4
  {
  }

  lemma PlacementSize(main: string)
    ensures AxisProduct(PlacementGroup(main)) == 3
  {
  }

  lemma TestReportSize()
    ensures AxisProduct(TestReportGroup()) == 2
  {
  }

  lemma DefaultSize()
    ensures AxisProduct(DefaultGroup()) == 11520
  {
  }

  lemma RenderMapSize()
    ensures AxisProduct(RenderMapGroup()) == 385
  {
  }

  lemma RenderSize(main: string)
    ensures Sum(RenderGroups(main), AxisProduct) == 56
    ensures AxisProduct(RenderGroups(main)[0]) == 48
  {
    var groups := RenderGroups(main);
    var tail := groups[1..];
    var last := tail[1..];
    assert last[1..] == [];
    assert AxisProduct(groups[0]) == 48 && AxisProduct(tail[0]) == 6 && AxisProduct(last[0]) == 2;
    assert Sum(last, AxisProduct) == 2 + Sum(last[1..], AxisProduct);
    assert Sum(tail, AxisProduct) == 6 + Sum(last, AxisProduct);
    assert Sum(groups, AxisProduct) == 48 + Sum(tail, AxisProduct);
  }

  /** A lone unfiltered valid group yields one poster per combination. */
  lemma SingleKeepAll(g: AxisGroup, libs: Libraries, n: int)
    requires g.filter == KeepAll && GroupValid(g) && AxisProduct(g) == n
    ensures PostersOf([g], libs).Ok?
    ensures |PostersOf([g], libs).value| == n
  {
    KeepAllGroupsCount([g], libs);
    assert [g][1..] == [];
    assert Sum([g], AxisProduct) == AxisProduct(g) + Sum([g][1..], AxisProduct);
  }

  /** 'render': 4 * 6 * 2 = 48 SVG-validity posters, 2 * 3 = 6 format posters, 2 SVG posters. */
  lemma RenderCount(mainLocationId: Option<string>, libs: Libraries)
    requires MainLocation(mainLocationId) in CatalogIds()
    ensures GetPosters("render", mainLocationId, libs).Ok?
    ensures |GetPosters("render", mainLocationId, libs).value| == 56
  {
    var main := MainLocation(mainLocationId);
    SelectRender(mainLocationId);
    MainGroupsValid(main);
    KeepAllGroupsCount(RenderGroups(main), libs);
    RenderSize(main);
  }

  lemma TileCount(mainLocationId: Option<string>, libs: Libraries)
    requires MainLocation(mainLocationId) in CatalogIds()
    ensures GetPosters("tile", mainLocationId, libs).Ok?
    ensures |GetPosters("tile", mainLocationId, libs).value| == 4
  {
    var main := MainLocation(mainLocationId);
    SelectTile(mainLocationId);
    MainGroupsValid(main);
    TileSize(main);
    SingleKeepAll(TileGroup(main), libs, 4);
  }

  lemma PlacementCount(service: string, mainLocationId: Option<string>, libs: Libraries)
    requires service == "placement" || service == "minimal"
    requires MainLocation(mainLocationId) in CatalogIds()
    ensures GetPosters(service, mainLocationId, libs).Ok?
    ensures |GetPosters(service, mainLocationId, libs).value| == 3
  {
    var main := MainLocation(mainLocationId);
    SelectPlacement(service, mainLocationId);
    MainGroupsValid(main);
    PlacementSize(main);
    SingleKeepAll(PlacementGroup(main), libs, 3);
  }

  /** 'test-report' always uses 'hki_c', so it never depends on the main location. */
  lemma TestReportCount(mainLocationId: Option<string>, libs: Libraries)
    ensures GetPosters("test-report", mainLocationId, libs).Ok?
    ensures |GetPosters("test-report", mainLocationId, libs).value| == 2
  {
    SelectTestReport(mainLocationId);
    TestReportGroupValid();
    TestReportSize();
    SingleKeepAll(TestReportGroup(), libs, 2);
  }

  /** The default group: 5 locations * 4 poster styles * 4 map styles * 6 sizes * 2 orientations * 12 zoom levels. */
  lemma DefaultCount(service: string, mainLocationId: Option<string>, libs: Libraries)
    requires service == "all" || service !in NamedServices
    ensures GetPosters(service, mainLocationId, libs).Ok?
    ensures |GetPosters(service, mainLocationId, libs).value| == 11520
  {
    UnknownServiceIsDefault(service, mainLocationId, mainLocationId);
    DefaultGroupValid();
    DefaultSize();
    SingleKeepAll(DefaultGroup(), libs, 11520);
  }

  /** The first group of every service built around the main location is that location alone, with combinations. */
  lemma MainFirstGroup(service: string, mainLocationId: Option<string>)
    requires service in ["render", "tile", "minimal", "placement"]
    ensures var groups := GetCombinations(service, mainLocationId);
            groups[0].locationIds == [MainLocation(mainLocationId)] && AxisProduct(groups[0]) > 0
  {
    var main := MainLocation(mainLocationId);
    if service == "render" {
      SelectRender(mainLocationId);
      RenderSize(main);
    } else if service == "tile" {
      SelectTile(mainLocationId);
      TileSize(main);
    } else {
      SelectPlacement(service, mainLocationId);
      PlacementSize(main);
    }
  }

  /** A main location missing from the catalogue makes every service that uses it fail with that id. */
  lemma MissingMainLocation(service: string, id: string, libs: Libraries)
    requires service in ["render", "tile", "minimal", "placement"]
    requires id !in CatalogIds()
    ensures GetPosters(service, Some(id), libs) == Err(LocationNotFound(id))
  {
    var groups := GetCombinations(service, Some(id));
    MainFirstGroup(service, Some(id));
    var g := groups[0];
    CombinationCount(g);
    GroupMissingLocation(g, libs);
    assert GroupBuilder(libs)(g) == Err(LocationNotFound(id));
  }

  // The filtered 'render-map' group.

  /** The render-map filter on a product tuple: first component a centre location, or last component zoom 15 or more. */
  predicate KeepTuple(v: Value, z: Value)
  {
    AsStr(v) in CenterLocationIds || AsInt(z) >= 15
  }

  /** A poster of a group that builds comes from one of the group's combinations. */
  lemma BuiltMember(g: AxisGroup, libs: Libraries, p: Poster)
    requires Built(g, libs).Ok?
    ensures p in Built(g, libs).value <==> exists c :: c in Combinations(g) && Builder(libs)(c) == Ok(p)
  {
    MapResultMember(Combinations(g), Builder(libs), p);
  }

  /** A built poster carries its combination's fields. */
  lemma BuildCarries(c: Combination, libs: Libraries)
    requires BuildPoster(c, libs).Ok?
    ensures Carries(BuildPoster(c, libs).value, c)
  {
    BuildPosterSpec(c, libs);
  }

  /** The render-map filter of a poster built from a tuple is the tuple filter of its ends. */
  lemma TupleKeep(t: seq<Value>, p: Poster)
    requires |t| == 8 && Carries(p, Decode(t))
    ensures Keeps(CenterOrHighZoom, p) == Ends(KeepTuple)(t)
  {
    assert p.locationId == AsStr(t[0]) && p.zoomLevel == AsInt(Last(t));
    assert Ends(KeepTuple)(t) == KeepTuple(t[0], Last(t));
  }

  /** Filtering a valid group's posters by centre-or-high-zoom counts the product tuples whose ends pass. */
  lemma FilteredBatch(g: AxisGroup, libs: Libraries)
    requires GroupValid(g)
    ensures Built(g, libs).Ok?
    ensures Count(Built(g, libs).value, Keep(CenterOrHighZoom)) == Count(Product(Axes(g)), Ends(KeepTuple))
  {
    GroupBuilds(g, libs);
    var ps := Built(g, libs).value;
    var ts := Product(Axes(g));
    var cs := Combinations(g);
    forall i | 0 <= i < |ps|
      ensures Keep(CenterOrHighZoom)(ps[i]) == Ends(KeepTuple)(ts[i])
    {
      var t := ts[i];
      assert cs[i] == Decode(t);
      ProductTupleLength(Axes(g), t);
      BuildCarries(cs[i], libs);
      TupleKeep(t, ps[i]);
    }
    CountPointwise(ps, Keep(CenterOrHighZoom), ts, Ends(KeepTuple));
  }

  /** The six middle axes of a group multiply to the product of their lengths. */
  lemma MiddleSize(g: AxisGroup)
    ensures Size(Axes(g)[1..7]) == |g.labelsEnabledFlags| * (|g.formats| * (|g.posterStyles|
                                    * (|g.mapStyles| * (|g.sizes| * |g.orientations|))))
  {
    var m := Axes(g)[1..7];
    assert m[5..][1..] == [];
    assert Size(m[5..]) == |m[5]|;
    assert m[4..][1..] == m[5..];
    assert Size(m[4..]) == |m[4]| * Size(m[5..]);
    assert m[3..][1..] == m[4..];
    assert Size(m[3..]) == |m[3]| * Size(m[4..]);
    assert m[2..][1..] == m[3..];
    assert Size(m[2..]) == |m[2]| * Size(m[3..]);
    assert m[1..][1..] == m[2..];
    assert Size(m[1..]) == |m[1]| * Size(m[2..]);
  }

  /** Of the catalogue, 'hki_c' and 'tokyo_c' pass below zoom 15, all five from zoom 15 on. */
  lemma CatalogKept(z: Value)
    ensures FirstCount(Map(CatalogIds(), StrValue), KeepTuple)(z) == if AsInt(z) >= 15 then 5 else 2
  {
    var ids := CatalogIds();
    var q := (id: string) => id in CenterLocationIds || AsInt(z) >= 15;
    forall x | x in ids
      ensures q(x) == Fix(KeepTuple, z)(StrValue(x))
    {
      assert Fix(KeepTuple, z)(StrValue(x)) == KeepTuple(Str(x), z);
      assert AsStr(Str(x)) == x;
    }
    CountMap(ids, StrValue, Fix(KeepTuple, z), q);
    CatalogIdsValue();
    CenterCount(q, AsInt(z) >= 15);
  }

  lemma CenterCount(q: string -> bool, high: bool)
    requires forall id :: q(id) == (id in CenterLocationIds || high)
    ensures Count(["hki_c", "hki_la", "hki_lab", "nrjvi", "tokyo_c"], q) == if high then 5 else 2
  {
    var empty: seq<string> := [];
    var s4 := ["tokyo_c"] + empty;
    var s3 := ["nrjvi"] + s4;
    var s2 := ["hki_lab"] + s3;
    var s1 := ["hki_la"] + s2;
    var s0 := ["hki_c"] + s1;
    var m := if high then 1 else 0;
    assert q("tokyo_c") && q("hki_c");
    assert q("nrjvi") == high && q("hki_lab") == high && q("hki_la") == high;
    assert Count(empty, q) == 0;
    CountCons("tokyo_c", empty, q);
    CountCons("nrjvi", s4, q);
    assert Count(s3, q) == 1 + m;
    CountCons("hki_lab", s3, q);
    CountCons("hki_la", s2, q);
    assert Count(s1, q) == 1 + 3 * m;
    CountCons("hki_c", s1, q);
    assert s0 == ["hki_c", "hki_la", "hki_lab", "nrjvi", "tokyo_c"];
  }

  lemma RangeSplit(lo: int, mid: int, hi: int)
    requires lo <= mid <= hi
    ensures Range(lo, hi) == Range(lo, mid) + Range(mid, hi)
  {
  }

  /** How many catalogue locations the render-map filter keeps at zoom level `z`. */
  function ZoomWeight(z: int): int
  {
    if z >= 15 then 5 else 2
  }

  lemma ZoomWeights()
    ensures Sum(Map(Range(6, 17), IntValue), FirstCount(Map(CatalogIds(), StrValue), KeepTuple))
         == Sum(Range(6, 17), ZoomWeight)
  {
    var fc := FirstCount(Map(CatalogIds(), StrValue), KeepTuple);
    forall i | i in Range(6, 17)
      ensures ZoomWeight(i) == fc(IntValue(i))
    {
      CatalogKept(IntValue(i));
    }
    SumMap(Range(6, 17), IntValue, fc, ZoomWeight);
  }

  lemma ZoomWeightSum()
    ensures Sum(Range(6, 17), ZoomWeight) == 28
  {
    RangeSplit(6, 15, 17);
    SumAppend(Range(6, 15), Range(15, 17), ZoomWeight);
    SumConstant(Range(6, 15), ZoomWeight, 2);
    SumConstant(Range(15, 17), ZoomWeight, 5);
  }

  /** Zoom levels 6 to 14 keep 2 locations each, 15 and 16 keep 5 each. */
  lemma ZoomSum()
    ensures Sum(Map(Range(6, 17), IntValue), FirstCount(Map(CatalogIds(), StrValue), KeepTuple)) == 28
  {
    ZoomWeights();
    ZoomWeightSum();
  }

  /** A group over the catalogue and zooms 6..16 with 7 middle combinations: 7 * 28 tuples pass. */
  lemma EndsCount(g: AxisGroup)
    requires g.locationIds == CatalogIds() && g.zoomLevels == Range(6, 17)
    requires |g.labelsEnabledFlags| * (|g.formats| * (|g.posterStyles| * (|g.mapStyles| * (|g.sizes| * |g.orientations|))))
             == 7
    ensures Count(Product(Axes(g)), Ends(KeepTuple)) == 196
  {
    var axes := Axes(g);
    MiddleSize(g);
    CountByEnds(axes, KeepTuple);
    ZoomSum();
  }

  lemma RenderMapTuples()
    ensures Count(Product(Axes(RenderMapGroup())), Ends(KeepTuple)) == 196
  {
    EndsCount(RenderMapGroup());
  }

  /** Of the 385 render-map combinations, 7 map styles * 28 (location, zoom) pairs = 196 survive the filter. */
  lemma RenderMapKept(libs: Libraries)
    ensures Built(RenderMapGroup(), libs).Ok?
    ensures |Built(RenderMapGroup(), libs).value| == 385
    ensures KeptBy(GroupBuilder(libs), GroupKeep)(RenderMapGroup()) == 196
  {
    var g := RenderMapGroup();
    RenderMapGroupValid();
    GroupBuilds(g, libs);
    CombinationCount(g);
    RenderMapSize();
    FilteredBatch(g, libs);
    RenderMapTuples();
    assert GroupKeep(g) == Keep(CenterOrHighZoom);
  }

  /** A single group that builds yields exactly the posters its filter keeps. */
  lemma SingleGroup(g: AxisGroup, libs: Libraries)
    requires Built(g, libs).Ok?
    ensures PostersOf([g], libs).Ok?
    ensures |PostersOf([g], libs).value| == KeptBy(GroupBuilder(libs), GroupKeep)(g)
  {
    var k := KeptBy(GroupBuilder(libs), GroupKeep);
    AssembleOk([g], GroupBuilder(libs), GroupKeep);
    AssembleLength([g], GroupBuilder(libs), GroupKeep);
    assert [g][1..] == [];
    assert Sum([g], k) == k(g) + Sum([g][1..], k);
  }

  lemma RenderMapCount(mainLocationId: Option<string>, libs: Libraries)
    ensures GetPosters("render-map", mainLocationId, libs).Ok?
    ensures |GetPosters("render-map", mainLocationId, libs).value| == 196
  {
    SelectRenderMap(mainLocationId);
    RenderMapKept(libs);
    SingleGroup(RenderMapGroup(), libs);
  }

  /**
   A poster is in the output of a list of groups exactly when some group has
   a combination that builds to it and the group's filter keeps it.
   */
  lemma PostersOfMember(groups: seq<AxisGroup>, libs: Libraries, p: Poster)
    requires PostersOf(groups, libs).Ok?
    ensures p in PostersOf(groups, libs).value <==>
              exists g, c :: g in groups && c in Combinations(g) && BuildPoster(c, libs) == Ok(p) && Keeps(g.filter, p)
  {
    if p in PostersOf(groups, libs).value {
      PostersOfOrigin(groups, libs, p);
    }
    if exists g, c :: g in groups && c in Combinations(g) && BuildPoster(c, libs) == Ok(p) && Keeps(g.filter, p) {
      var g, c :| g in groups && c in Combinations(g) && BuildPoster(c, libs) == Ok(p) && Keeps(g.filter, p);
      PostersOfReach(groups, libs, g, c, p);
    }
  }

  lemma PostersOfOrigin(groups: seq<AxisGroup>, libs: Libraries, p: Poster)
    requires PostersOf(groups, libs).Ok?
    requires p in PostersOf(groups, libs).value
    ensures exists g, c :: g in groups && c in Combinations(g) && BuildPoster(c, libs) == Ok(p) && Keeps(g.filter, p)
  {
    AssembleMember(groups, GroupBuilder(libs), GroupKeep, p);
    var i :| 0 <= i < |groups| && p in OrEmpty(GroupBuilder(libs)(groups[i])) && GroupKeep(groups[i])(p);
    GroupOrigin(groups[i], libs, p);
    var c :| c in Combinations(groups[i]) && BuildPoster(c, libs) == Ok(p);
    assert groups[i] in groups;
  }

  lemma PostersOfReach(groups: seq<AxisGroup>, libs: Libraries, g: AxisGroup, c: Combination, p: Poster)
    requires PostersOf(groups, libs).Ok?
    requires g in groups && c in Combinations(g) && BuildPoster(c, libs) == Ok(p) && Keeps(g.filter, p)
    ensures p in PostersOf(groups, libs).value
  {
    AssembleOk(groups, GroupBuilder(libs), GroupKeep);
    var i :| 0 <= i < |groups| && groups[i] == g;
    assert GroupBuilder(libs)(groups[i]).Ok?;
    assert Built(g, libs).Ok?;
    assert Builder(libs)(c) == Ok(p);
    GroupInList(groups, g, libs, p);
    AssembleMember(groups, GroupBuilder(libs), GroupKeep, p);
  }

  /** Each group's posters follow the posters of the groups before it. */
  lemma PostersInGroupOrder(first: seq<AxisGroup>, rest: seq<AxisGroup>, libs: Libraries)
    ensures PostersOf(first + rest, libs).Ok? <==> PostersOf(first, libs).Ok? && PostersOf(rest, libs).Ok?
    ensures PostersOf(first + rest, libs).Ok? ==>
              PostersOf(first + rest, libs).value == PostersOf(first, libs).value + PostersOf(rest, libs).value
  {
    AssembleAppend(first, rest, GroupBuilder(libs), GroupKeep);
  }

  /** Within the output, every group keeps its batch's order: the output is a subsequence of all batches laid end to end. */
  lemma PostersKeepBatchOrder(groups: seq<AxisGroup>, libs: Libraries)
    requires PostersOf(groups, libs).Ok?
    ensures IsSubsequence(PostersOf(groups, libs).value, Unfiltered(groups, GroupBuilder(libs)))
  {
    AssembleSubsequence(groups, GroupBuilder(libs), GroupKeep);
  }

  lemma GroupOrigin(g: AxisGroup, libs: Libraries, p: Poster)
    requires p in OrEmpty(GroupBuilder(libs)(g)) && GroupKeep(g)(p)
    ensures exists c :: c in Combinations(g) && BuildPoster(c, libs) == Ok(p)
    ensures Keeps(g.filter, p)
  {
    assert GroupBuilder(libs)(g) == Built(g, libs);
    BuiltMember(g, libs, p);
    var c :| c in Combinations(g) && Builder(libs)(c) == Ok(p);
    assert BuildPoster(c, libs) == Ok(p);
  }

  lemma GroupInList(groups: seq<AxisGroup>, g: AxisGroup, libs: Libraries, p: Poster)
    requires g in groups
    requires Built(g, libs).Ok?
    requires exists c :: c in Combinations(g) && Builder(libs)(c) == Ok(p)
    requires Keeps(g.filter, p)
    ensures exists i :: 0 <= i < |groups| && p in OrEmpty(GroupBuilder(libs)(groups[i])) && GroupKeep(groups[i])(p)
  {
    var i :| 0 <= i < |groups| && groups[i] == g;
    BuiltMember(g, libs, p);
    assert p in OrEmpty(GroupBuilder(libs)(groups[i]));
  }
}

=== FILE: rename.dfy ===
/**
 The string helpers of tools/rename-s3-files.js: `removeEnd` and the key
 rename `transformKeyName`, which rebuilds a key from Node's
 `path.basename` and `path.extname` (POSIX flavour).
 */
module RenameKeys {
  import opened Seqs
  import opened Strings

  /** `removeEnd(str, ending)`: drop `ending` from the end of `str` when it is there. */
  function RemoveEnd(str: string, ending: string): (r: string)
    ensures !EndsWith(str, ending) ==> r == str
    ensures EndsWith(str, ending) ==> r + ending == str
    ensures r <= str
    ensures |r| == if EndsWith(str, ending) then |str| - |ending| else |str|
  {
    if !EndsWith(str, ending) then str
    else
      var r := str[..|str| - |ending|];
      assert r + ending == str;
      r
  }

  lemma RemoveEndEmpty(s: string)
    ensures RemoveEnd(s, "") == s
  {
    assert EndsWith(s, "");
  }

  /** Removing an ending undoes appending it. */
  lemma RemoveAppendedEnd(s: string, ending: string)
    ensures RemoveEnd(s + ending, ending) == s
  {
    var t := s + ending;
    assert t[|t| - |ending|..] == ending;
    assert t[..|t| - |ending|] == s;
  }

  /** The length of `p[..n]` once its trailing '/' characters are dropped. */
  function TrimmedEnd(p: string, n: nat): (e: nat)
    requires n <= |p|
    ensures e <= n && (e == 0 || p[e - 1] != '/')
    ensures forall i :: e <= i < n ==> p[i] == '/'
    decreases n
  {
    if n > 0 && p[n - 1] == '/' then TrimmedEnd(p, n - 1) else n
  }

  /** The path with its trailing '/' characters removed. */
  function TrimTrailingSlashes(p: string): (t: string)
    ensures t <= p
    ensures t == [] || t[|t| - 1] != '/'
    ensures forall i :: |t| <= i < |p| ==> p[i] == '/'
  {
    p[..TrimmedEnd(p, |p|)]
  }

  /** Where the run of non-'/' characters that ends at `n` starts. */
  function SegmentStart(t: string, n: nat): (b: nat)
    requires n <= |t|
    ensures b <= n && (b == 0 || t[b - 1] == '/')
    ensures forall i :: b <= i < n ==> t[i] != '/'
    decreases n
  {
    if n > 0 && t[n - 1] != '/' then SegmentStart(t, n - 1) else n
  }

  /** The text after the last '/'. */
  function LastSegment(t: string): (c: string)
    ensures '/' !in c
    ensures |c| <= |t| && c == t[|t| - |c|..]
    ensures |c| < |t| ==> t[|t| - |c| - 1] == '/'
  {
    var b := SegmentStart(t, |t|);
    assert forall i :: 0 <= i < |t| - b ==> t[b..][i] == t[b + i];
    t[b..]
  }

  /** The final path component, ignoring trailing separators: what `path.basename(p)` returns. */
  function LastComponent(p: string): (c: string)
    ensures '/' !in c
    ensures |c| <= |TrimTrailingSlashes(p)| <= |p|
    ensures var t := TrimTrailingSlashes(p); c == t[|t| - |c|..]
    ensures var t := TrimTrailingSlashes(p); |c| < |t| ==> t[|t| - |c| - 1] == '/'
  {
    LastSegment(TrimTrailingSlashes(p))
  }

  /** The position of the last '.' in `c`. */
  function LastDot(c: string): (d: Option<nat>)
    ensures d.None? ==> forall j :: 0 <= j < |c| ==> c[j] != '.'
    ensures d.Some? ==> d.value < |c| && c[d.value] == '.' && forall j :: d.value < j < |c| ==> c[j] != '.'
    decreases |c|
  {
    if c == [] then None
    else if c[|c| - 1] == '.' then Some(|c| - 1)
    else
      var init := c[..|c| - 1];
      assert forall j :: 0 <= j < |init| ==> init[j] == c[j];
      LastDot(init)
  }

  /**
   The extension of a path component: from its last '.' to its end; empty
   when there is no '.', when the only candidate starts the component (a
   dot-file), and for the component `..`.
   */
  function ExtensionOf(c: string): (ext: string)
    ensures ext == [] || (|ext| < |c| && EndsWith(c, ext) && ext[0] == '.' && '.' !in ext[1..])
    ensures ext == [] <==> LastDot(c).None? || LastDot(c).value == 0 || c == ".."
  {
    var d := LastDot(c);
    if d.None? || d.value == 0 || c == ".." then []
    else
      var ext := c[d.value..];
      assert c[|c| - |ext|..] == ext;
      assert forall m :: 0 <= m < |ext| - 1 ==> ext[1..][m] == c[d.value + 1 + m];
      ext
  }

  /** `path.extname(p)`: the extension of the final component. */
  function Extname(p: string): string
  {
    ExtensionOf(LastComponent(p))
  }

  /**
   `path.basename(p, suffix)`: the final component with `suffix` removed
   from its end, following Node's scan. The path equal to the suffix gives
   the empty string; otherwise the component is matched against the suffix
   as `StripComponent` describes, with the path's trailing separators at hand.
   */
  function Basename(p: string, suffix: string): (r: string)
    ensures suffix == [] || |suffix| > |p| ==> r == LastComponent(p)
    ensures suffix != [] && suffix == p ==> r == []
    ensures (suffix != [] && suffix != p && |suffix| <= |p|)
             ==> r == StripComponent(LastComponent(p), p[|TrimTrailingSlashes(p)|..], suffix)
  {
    var c := LastComponent(p);
    var end := |TrimTrailingSlashes(p)|;
    if suffix != [] && |suffix| <= |p| then
      if suffix == p then []
      else StripComponent(c, p[end..], suffix)
    else c
  }

  /**
   Node's backwards match of a non-empty suffix against a component `c`
   whose path ends in `separators`: a proper ending is cut off, a component
   equal to the suffix is kept whole, a component that is itself a proper
   ending of the suffix comes back with the separators, and any other
   component is kept.
   */
  function StripComponent(c: string, separators: string, suffix: string): (r: string)
    requires suffix != []
    ensures c == suffix ==> r == c
    ensures |suffix| < |c| && EndsWith(c, suffix) ==> r + suffix == c
    ensures !EndsWith(c, suffix) && EndsWith(suffix, c) ==> r == c + separators
    ensures !EndsWith(c, suffix) && !EndsWith(suffix, c) ==> r == c
  {
    if EndsWith(c, suffix) then
      if c == suffix then c
      else
        DropEnding(c, suffix);
        c[..|c| - |suffix|]
    else if EndsWith(suffix, c) then c + separators
    else c
  }

  /**
   The component followed by the trailing separators is the slice of the
   path from where the component starts, which is what Node returns.
   */
  lemma SliceFromComponent(p: string)
    ensures var t := TrimTrailingSlashes(p);
      p[|t| - |LastComponent(p)|..] == LastComponent(p) + p[|t|..]
  {
    var c := LastComponent(p);
    var t := TrimTrailingSlashes(p);
    SplitTail(p, |t| - |c|, |t|);
    assert p[|t| - |c|..|t|] == t[|t| - |c|..];
  }

  lemma SplitTail(p: string, i: nat, j: nat)
    requires i <= j <= |p|
    ensures p[i..] == p[i..j] + p[j..]
  {
  }

  lemma DropEnding(c: string, suffix: string)
    requires EndsWith(c, suffix)
    ensures c[..|c| - |suffix|] + suffix == c
  {
    assert c[..|c| - |suffix|] + c[|c| - |suffix|..] == c;
  }

  /** A component shorter than the suffix it ends comes back with the path's trailing separators. */
  lemma BasenameKeepsSeparators()
    ensures Basename("x/png/", ".png") == "png/"
  {
    var p := "x/png/";
    assert TrimmedEnd(p, 5) == 5;
    assert TrimTrailingSlashes(p) == "x/png";
    assert SegmentStart("x/png", 2) == 2;
    assert LastComponent(p) == "png";
  }

  /** `transformKeyName(key)`: the base name followed by the extension. */
  function TransformKeyName(key: string): string
  {
    Basename(key, Extname(key)) + Extname(key)
  }

  /** The rebuilt name is the key's final component. */
  lemma TransformKeyNameIsLastComponent(key: string)
    ensures TransformKeyName(key) == LastComponent(key)
  {
    if Extname(key) == [] {
      TransformWithoutExtension(key);
    } else {
      TransformWithExtension(key);
    }
  }

  lemma TransformWithoutExtension(key: string)
    requires Extname(key) == []
    ensures TransformKeyName(key) == LastComponent(key)
  {
    var c := LastComponent(key);
    assert Basename(key, []) == c;
    assert c + [] == c;
  }

  lemma TransformWithExtension(key: string)
    requires Extname(key) != []
    ensures TransformKeyName(key) == LastComponent(key)
  {
    var ext := Extname(key);
    assert |ext| < |LastComponent(key)| && EndsWith(LastComponent(key), ext);
    assert ext != key;
  }

  lemma LastComponentOfPlainName(s: string)
    requires '/' !in s
    ensures LastComponent(s) == s
  {
    assert s == [] || s[|s| - 1] != '/';
    assert TrimTrailingSlashes(s) == s;
    StartWithoutSlash(s, |s|);
  }

  lemma {:induction false} StartWithoutSlash(t: string, n: nat)
    requires n <= |t| && '/' !in t
    ensures SegmentStart(t, n) == 0
    decreases n
  {
    if n > 0 {
      assert t[n - 1] in t;
      StartWithoutSlash(t, n - 1);
    }
  }

  /** A key without '/' is left as it is. */
  lemma TransformKeyNameIdentity(key: string)
    requires '/' !in key
    ensures TransformKeyName(key) == key
  {
    TransformKeyNameIsLastComponent(key);
    LastComponentOfPlainName(key);
  }

  /**
   Two keys in different directories with the same final component are
   renamed onto the same key, so the second copy overwrites the first.
   */
  lemma TransformKeyNameMergesKeys()
    ensures TransformKeyName("x/a.png") == TransformKeyName("y/a.png") == "a.png"
    ensures "x/a.png" != "y/a.png"
  {
    assert "x/a.png" == "x" + "/" + "a.png";
    assert "y/a.png" == "y" + "/" + "a.png";
    RenamedInDirectory("x", "a.png");
    RenamedInDirectory("y", "a.png");
  }

  /** A key `dir/name` is renamed to `name`, whatever `dir` is. */
  lemma RenamedInDirectory(dir: string, name: string)
    requires name != [] && '/' !in name
    ensures TransformKeyName(dir + "/" + name) == name
  {
    TransformKeyNameIsLastComponent(dir + "/" + name);
    ComponentInDirectory(dir, name);
  }

  lemma ComponentInDirectory(dir: string, name: string)
    requires name != [] && '/' !in name
    ensures LastComponent(dir + "/" + name) == name
  {
    var key := dir + "/" + name;
    assert key[|dir| + 1..] == name;
    assert forall i :: |dir| + 1 <= i < |key| ==> key[i] == name[i - |dir| - 1];
    assert key[|key| - 1] == name[|name| - 1];
    PlainComponentAfterSlash(key, |dir| + 1);
  }

  /** After a '/' at `b - 1`, a '/'-free tail that does not end in '/' is the final component. */
  lemma PlainComponentAfterSlash(p: string, b: nat)
    requires 0 < b < |p| && p[b - 1] == '/' && p[|p| - 1] != '/'
    requires forall i :: b <= i < |p| ==> p[i] != '/'
    ensures LastComponent(p) == p[b..]
  {
    assert TrimTrailingSlashes(p) == p;
    SegmentAt(p, |p|, b);
  }

  lemma {:induction false} SegmentAt(t: string, n: nat, b: nat)
    requires 0 < b <= n <= |t| && t[b - 1] == '/'
    requires forall i :: b <= i < n ==> t[i] != '/'
    ensures SegmentStart(t, n) == b
    decreases n
  {
    if n > b {
      SegmentAt(t, n - 1, b);
    }
  }

  /**
   The renaming with the key's directory and trailing separators put back
   around the rebuilt name: the key as it is.
   */
  function KeepKeyName(key: string): (r: string)
    ensures r == key
  {
    var t := TrimTrailingSlashes(key);
    var c := LastComponent(key);
    TransformKeyNameIsLastComponent(key);
    ReassembleKey(key, t, c);
    key[..|t| - |c|] + TransformKeyName(key) + key[|t|..]
  }

  lemma ReassembleKey(key: string, t: string, c: string)
    requires t <= key && |c| <= |t| && c == t[|t| - |c|..]
    ensures key[..|t| - |c|] + c + key[|t|..] == key
  {
    assert key[..|t|] == t;
    assert t[..|t| - |c|] + c == t;
  }

  /** Renaming twice gives the same key as renaming once. */
  lemma TransformKeyNameIdempotent(key: string)
    ensures TransformKeyName(TransformKeyName(key)) == TransformKeyName(key)
  {
    TransformKeyNameIsLastComponent(key);
    TransformKeyNameIdentity(TransformKeyName(key));
  }
}

=== FILE: reporting.dfy ===
/**
 The data shaping of `generateHtml` in src/reporting.js: every visual diff
 becomes a report entry (a link into the poster designer, a title, a service
 explanation and a format note), and the entries are ordered by their
 number of differing pixels, largest first, ties in input order.
 */
module Reporting {
  import opened Seqs
  import opened Locations
  import opened Posters
  import opened Core
  import opened StableSort

  const ServiceExplanations: map<string, string> := map[
    "render" := "/api/raster/render (Render service)",
    "tile" := "/api/raster/render?useTileRender=true (Render service)",
    "render-map" := "/api/raster/render-map (Render service)",
    "placement" := "/api/place-map (Placement service)"
  ]

  /** `serviceToExplanation[service] || service`. */
  function ServiceExplanation(service: string): (r: string)
    ensures service in ServiceExplanations ==> r == ServiceExplanations[service]
    ensures r == service <==> service !in ServiceExplanations
  {
    if service in ServiceExplanations then ServiceExplanations[service] else service
  }

  const ConvertedNote: string := "(Requested as this format and converted to PNG for visual diff)"
  const SvgNote: string :=
    "(Requested as this format and converted to PNG for visual diff. SVG files have wrong fonts, because the fonts are not installed in CI)"

  /** `getFormatDescription(format)`: nothing for PNG, a font warning for SVG, a conversion note otherwise. */
  function FormatDescription(format: string): (r: string)
    ensures r == "" <==> format == "png"
    ensures r == SvgNote <==> format == "svg"
    ensures r == ConvertedNote <==> format != "png" && format != "svg"
  {
    if format == "png" then ""
    else if format == "svg" then SvgNote
    else ConvertedNote
  }

  /**
   One visual diff: the poster, the service it was rendered by, the number of
   differing pixels and the two spellings of the base name the report reads
   (`diff.basename` for the id, `diff.baseName` for the title).
   */
  datatype Diff = Diff(
    poster: Poster,
    service: string,
    differences: int,
    basename: Option<string>,
    baseName: Option<string>)

  /** A report entry: the diff it came from and the fields `generateHtml` adds. */
  datatype Entry = Entry(
    diff: Diff,
    id: Option<string>,
    designerUrl: string,
    title: string,
    serviceExplanation: string,
    differencesHuman: string,
    formatDescription: string)

  /** Library behaviour: `querystring.stringify` over a list of properties, and `millify`. */
  datatype ReportEnv = ReportEnv(
    stringify: seq<(string, FieldValue)> -> string,
    millify: int -> string)

  datatype ReportError = LocationMissing(id: string)

  const DesignerUrlPrefix: string := "https://design.alvarcarto.com?"

  /** The designer link's query: the location's coordinates, half a zoom level up, and the poster's look. */
  function DesignerQuery(p: Poster, location: Location): (q: seq<(string, FieldValue)>)
    ensures |q| == 11
    ensures q[0] == ("lat", Number(location.lat)) && q[1] == ("lng", Number(location.lng))
    ensures q[2] == ("zoom", Number(p.zoomLevel as real + 0.5))
  {
    [ ("lat", Number(location.lat)), ("lng", Number(location.lng)), ("zoom", Number(p.zoomLevel as real + 0.5)),
      ("size", Text(p.size)), ("orientation", Text(p.orientation)), ("posterStyle", Text(p.posterStyle)),
      ("mapStyle", Text(p.mapStyle)), ("labelsEnabled", Flag(p.labelsEnabled)), ("labelHeader", Text(p.labelHeader)),
      ("labelSmallHeader", Text(p.labelSmallHeader)), ("labelText", Text(p.labelText)) ]
  }

  /** A template literal's rendering of a possibly missing string. */
  function TextOrUndefined(s: Option<string>): string
  {
    if s.Some? then s.value else "undefined"
  }

  /**
   The `_.map` callback of `generateHtml`: the catalogue lookup of the
   poster's location fails when the id is unknown (reading `lat` of
   `undefined`).
   */
  function ShapeEntry(d: Diff, env: ReportEnv): (r: Result<Entry, ReportError>)
    ensures r.Ok? <==> d.poster.locationId in CatalogIds()
    ensures r.Err? ==> r.error == LocationMissing(d.poster.locationId)
    ensures r.Ok? ==> r.value.diff == d && r.value.id == d.basename
    ensures r.Ok? ==> && r.value.title == TextOrUndefined(d.baseName) + ".png"
                      && r.value.serviceExplanation == ServiceExplanation(d.service)
                      && r.value.formatDescription == FormatDescription(d.poster.format)
                      && r.value.differencesHuman == env.millify(d.differences)
                      && r.value.designerUrl
                         == DesignerUrlPrefix + env.stringify(DesignerQuery(d.poster, Find(d.poster.locationId).value))
  {
    match Find(d.poster.locationId)
    case None => Err(LocationMissing(d.poster.locationId))
    case Some(location) =>
      Ok(Entry(
        d,
        d.basename,
        DesignerUrlPrefix + env.stringify(DesignerQuery(d.poster, location)),
        TextOrUndefined(d.baseName) + ".png",
        ServiceExplanation(d.service),
        env.millify(d.differences),
        FormatDescription(d.poster.format)))
  }

  /**
   An entry's notes: the format note is empty exactly for a PNG poster and is
   the SVG font warning exactly for an SVG one; the service is explained by
   its own name exactly when it has no table entry.
   */
  lemma EntryNotes(d: Diff, env: ReportEnv)
    requires ShapeEntry(d, env).Ok?
    ensures var e := ShapeEntry(d, env).value;
            && (e.formatDescription == "" <==> d.poster.format == "png")
            && (e.formatDescription == SvgNote <==> d.poster.format == "svg")
            && (e.serviceExplanation == d.service <==> d.service !in ServiceExplanations)
  {
  }

  /** A diff that carries `baseName` is titled with it. */
  lemma TitleWithBaseName(d: Diff, env: ReportEnv)
    requires ShapeEntry(d, env).Ok? && d.baseName.Some?
    ensures ShapeEntry(d, env).value.title == d.baseName.value + ".png"
  {
  }

  function Shaper(env: ReportEnv): Diff -> Result<Entry, ReportError>
  {
    (d: Diff) => ShapeEntry(d, env)
  }

  function Differences(e: Entry): int
  {
    e.diff.differences
  }

  /** The diff list `generateHtml` hands to the template: shaped, then `_.orderBy(…, 'differences', 'desc')`. */
  function ReportEntries(diffs: seq<Diff>, env: ReportEnv): Result<seq<Entry>, ReportError>
  {
    match MapResult(diffs, Shaper(env))
    case Err(e) => Err(e)
    case Ok(entries) => Ok(SortDesc(entries, Differences))
  }

  /** The report is built exactly when every diff's location is in the catalogue; otherwise the first unknown one is reported. */
  lemma ReportEntriesOk(diffs: seq<Diff>, env: ReportEnv)
    ensures ReportEntries(diffs, env).Ok? <==> forall i :: 0 <= i < |diffs| ==> diffs[i].poster.locationId in CatalogIds()
    ensures ReportEntries(diffs, env).Err? ==>
              exists i :: 0 <= i < |diffs| && diffs[i].poster.locationId !in CatalogIds()
                          && ReportEntries(diffs, env).error == LocationMissing(diffs[i].poster.locationId)
                          && forall j :: 0 <= j < i ==> diffs[j].poster.locationId in CatalogIds()
  {
    var f := Shaper(env);
    MapResultOk(diffs, f);
    assert forall i :: 0 <= i < |diffs| ==> f(diffs[i]) == ShapeEntry(diffs[i], env);
    if MapResult(diffs, f).Err? {
      MapResultFirstError(diffs, f);
    }
  }

  /**
   The entries come out largest difference first, as a permutation of the
   shaped diffs in which entries with equal differences keep their input order.
   */
  lemma ReportEntriesOrdered(diffs: seq<Diff>, env: ReportEnv)
    requires ReportEntries(diffs, env).Ok?
    ensures var shaped := MapResult(diffs, Shaper(env));
            var r := ReportEntries(diffs, env).value;
            && shaped.Ok?
            && NonIncreasing(r, Differences)
            && multiset(r) == multiset(shaped.value)
            && forall k :: Filter(r, WithKey(Differences, k)) == Filter(shaped.value, WithKey(Differences, k))
  {
    var entries := MapResult(diffs, Shaper(env)).value;
    SortDescSorted(entries, Differences);
    forall k
      ensures Filter(SortDesc(entries, Differences), WithKey(Differences, k)) == Filter(entries, WithKey(Differences, k))
    {
      SortDescStable(entries, Differences, k);
    }
  }

  /** Every entry is the shaping of one of the diffs, and every diff's shaping is an entry. */
  lemma ReportEntriesMember(diffs: seq<Diff>, env: ReportEnv, e: Entry)
    requires ReportEntries(diffs, env).Ok?
    ensures e in ReportEntries(diffs, env).value <==> exists d :: d in diffs && ShapeEntry(d, env) == Ok(e)
  {
    var f := Shaper(env);
    var entries := MapResult(diffs, f).value;
    SortDescSorted(entries, Differences);
    assert e in ReportEntries(diffs, env).value <==> e in multiset(entries);
    MapResultMember(diffs, f, e);
    assert forall d :: f(d) == ShapeEntry(d, env);
  }

  /** The length of the report is the number of diffs. */
  lemma ReportEntriesLength(diffs: seq<Diff>, env: ReportEnv)
    requires ReportEntries(diffs, env).Ok?
    ensures |ReportEntries(diffs, env).value| == |diffs|
  {
    MapResultOk(diffs, Shaper(env));
  }

  /**
   For a poster the generator built, the designer link points at the
   poster's own coordinates: the catalogue entry the report looks up is the
   one the poster was placed at.
   */
  lemma DesignerLinkCoordinates(c: Combination, libs: Libraries, p: Poster)
    requires BuildPoster(c, libs) == Ok(p)
    ensures Find(p.locationId).Some?
    ensures var q := DesignerQuery(p, Find(p.locationId).value);
            q[0] == ("lat", Number(p.lat)) && q[1] == ("lng", Number(p.lng))
            && q[2] == ("zoom", Number(c.zoomLevel as real + 0.5))
  {
    BuiltPlacement(c, libs, p);
    assert p.locationId == c.locationId;
    var location := Find(c.locationId).value;
    assert p.lat == location.lat && p.lng == location.lng && p.zoomLevel == c.zoomLevel;
    var q := DesignerQuery(p, location);
  }

  /** Titles read `diff.baseName`, so a diff carrying only `basename` gets the title `undefined.png`. */
  lemma TitleWithoutBaseName(d: Diff, env: ReportEnv)
    requires ShapeEntry(d, env).Ok? && d.baseName.None?
    ensures ShapeEntry(d, env).value.title == "undefined.png"
  {
    UndefinedTitleText();
  }

  lemma UndefinedTitleText()
    ensures TextOrUndefined(None) + ".png" == "undefined.png"
  {
    var t := TextOrUndefined(None) + ".png";
    assert forall i :: 0 <= i < 13 ==> t[i] == "undefined.png"[i];
  }
}

=== FILE: seqs.dfy ===
/**
 Generic helpers over sequences: the lodash-style `map`, `filter`, flat-map
 and sum that the rest of the model is written with, and the facts about them
 that the counting and ordering proofs need.
 */
module Seqs {

  datatype Option<+T> = None | Some(value: T)

  datatype Result<+T, +E> = Ok(value: T) | Err(error: E)

  function Map<A, B>(xs: seq<A>, f: A -> B): (r: seq<B>)
    ensures |r| == |xs|
    ensures forall i :: 0 <= i < |xs| ==> r[i] == f(xs[i])
  {
    seq(|xs|, i requires 0 <= i < |xs| => f(xs[i]))
  }

  /** `a` is `b` with some elements dropped and the rest kept in order. */
  ghost predicate IsSubsequence<T>(a: seq<T>, b: seq<T>)
    decreases |b|
  {
    if a == [] then true
    else if b == [] then false
    else (a[0] == b[0] && IsSubsequence(a[1..], b[1..])) || IsSubsequence(a, b[1..])
  }

  /** Order-preserving filter, as `_.filter`. */
  function Filter<T>(xs: seq<T>, p: T -> bool): (r: seq<T>)
    ensures |r| <= |xs|
    decreases |xs|
  {
    if xs == [] then []
    else if p(xs[0]) then [xs[0]] + Filter(xs[1..], p)
    else Filter(xs[1..], p)
  }

  /** The filter keeps exactly the elements that pass, in their original order. */
  lemma {:induction false} FilterSpec<T>(xs: seq<T>, p: T -> bool)
    ensures forall x :: x in Filter(xs, p) <==> x in xs && p(x)
    ensures IsSubsequence(Filter(xs, p), xs)
    decreases |xs|
  {
    if xs != [] {
      FilterSpec(xs[1..], p);
      assert xs == [xs[0]] + xs[1..];
      if p(xs[0]) {
        assert Filter(xs, p)[1..] == Filter(xs[1..], p);
      }
    }
  }

  /** Every element that passes keeps all its occurrences; every other element has none. */
  lemma {:induction false} FilterMultiset<T>(xs: seq<T>, p: T -> bool)
    ensures forall x :: multiset(Filter(xs, p))[x] == if p(x) then multiset(xs)[x] else 0
    decreases |xs|
  {
    if xs != [] {
      FilterMultiset(xs[1..], p);
      assert xs == [xs[0]] + xs[1..];
      assert multiset(xs) == multiset([xs[0]]) + multiset(xs[1..]);
      if p(xs[0]) {
        assert multiset(Filter(xs, p)) == multiset([xs[0]]) + multiset(Filter(xs[1..], p));
      }
    }
  }

  function Count<T>(xs: seq<T>, p: T -> bool): nat
  {
    |Filter(xs, p)|
  }

  function FlatMap<A, B>(xs: seq<A>, f: A -> seq<B>): seq<B>
    decreases |xs|
  {
    if xs == [] then [] else f(xs[0]) + FlatMap(xs[1..], f)
  }

  function Sum<T>(xs: seq<T>, h: T -> int): int
    decreases |xs|
  {
    if xs == [] then 0 else h(xs[0]) + Sum(xs[1..], h)
  }

  lemma MapMember<A, B>(xs: seq<A>, f: A -> B, y: B)
    ensures y in Map(xs, f) <==> exists x :: x in xs && y == f(x)
  {
    var r := Map(xs, f);
    if y in r {
      var i :| 0 <= i < |r| && r[i] == y;
      assert xs[i] in xs && y == f(xs[i]);
    }
    if exists x :: x in xs && y == f(x) {
      var x :| x in xs && y == f(x);
      var i :| 0 <= i < |xs| && xs[i] == x;
      assert r[i] == y;
    }
  }

  lemma {:induction false} FilterAppend<T>(a: seq<T>, b: seq<T>, p: T -> bool)
    ensures Filter(a + b, p) == Filter(a, p) + Filter(b, p)
    decreases |a|
  {
    if a == [] {
      assert a + b == b;
    } else {
      assert (a + b)[1..] == a[1..] + b;
      FilterAppend(a[1..], b, p);
    }
  }

  lemma {:induction false} SubsequenceAppend<T>(a1: seq<T>, b1: seq<T>, a2: seq<T>, b2: seq<T>)
    requires IsSubsequence(a1, b1) && IsSubsequence(a2, b2)
    ensures IsSubsequence(a1 + a2, b1 + b2)
    decreases |b1|
  {
    if b1 == [] {
      assert a1 == [];
      assert a1 + a2 == a2 && b1 + b2 == b2;
    } else if a1 != [] && a1[0] == b1[0] && IsSubsequence(a1[1..], b1[1..]) {
      SubsequenceAppend(a1[1..], b1[1..], a2, b2);
      assert (a1 + a2)[1..] == a1[1..] + a2;
      assert (b1 + b2)[1..] == b1[1..] + b2;
    } else if a1 == [] {
      SubsequenceAppend(a1, b1[1..], a2, b2);
      assert (b1 + b2)[1..] == b1[1..] + b2;
      assert a1 + a2 == a2;
      if a2 != [] {
        assert IsSubsequence(a2, (b1 + b2)[1..]);
      }
    } else {
      SubsequenceAppend(a1, b1[1..], a2, b2);
      assert (b1 + b2)[1..] == b1[1..] + b2;
    }
  }

  /** Counting two sequences element by element under two predicates that agree position-wise. */
  lemma {:induction false} CountPointwise<A, B>(xs: seq<A>, p: A -> bool, ys: seq<B>, q: B -> bool)
    requires |xs| == |ys|
    requires forall i :: 0 <= i < |xs| ==> p(xs[i]) == q(ys[i])
    ensures Count(xs, p) == Count(ys, q)
    decreases |xs|
  {
    if xs != [] {
      assert p(xs[0]) == q(ys[0]);
      forall i | 0 <= i < |xs[1..]|
        ensures p(xs[1..][i]) == q(ys[1..][i])
      {
        assert p(xs[i + 1]) == q(ys[i + 1]);
      }
      CountPointwise(xs[1..], p, ys[1..], q);
    }
  }

  lemma {:induction false} CountAll<T>(xs: seq<T>, p: T -> bool)
    requires forall x :: x in xs ==> p(x)
    ensures Count(xs, p) == |xs|
    decreases |xs|
  {
    if xs != [] {
      assert xs[0] in xs;
      assert forall x :: x in xs[1..] ==> x in xs;
      CountAll(xs[1..], p);
    }
  }

  lemma CountCons<T>(x: T, xs: seq<T>, p: T -> bool)
    ensures Count([x] + xs, p) == (if p(x) then 1 else 0) + Count(xs, p)
  {
    assert ([x] + xs)[1..] == xs;
  }

  lemma {:induction false} CountMap<A, B>(xs: seq<A>, f: A -> B, p: B -> bool, q: A -> bool)
    requires forall x :: x in xs ==> q(x) == p(f(x))
    ensures Count(Map(xs, f), p) == Count(xs, q)
  {
    var ys := Map(xs, f);
    forall i | 0 <= i < |ys|
      ensures p(ys[i]) == q(xs[i])
    {
      assert xs[i] in xs;
    }
    CountPointwise(ys, p, xs, q);
  }

  lemma {:induction false} CountFlatMap<A, B>(xs: seq<A>, f: A -> seq<B>, p: B -> bool, h: A -> int)
    requires forall x :: x in xs ==> h(x) == Count(f(x), p)
    ensures Count(FlatMap(xs, f), p) == Sum(xs, h)
    decreases |xs|
  {
    if xs != [] {
      assert xs[0] in xs;
      assert forall x :: x in xs[1..] ==> x in xs;
      FilterAppend(f(xs[0]), FlatMap(xs[1..], f), p);
      CountFlatMap(xs[1..], f, p, h);
    }
  }

  lemma {:induction false} SumConstant<T>(xs: seq<T>, h: T -> int, c: int)
    requires forall x :: x in xs ==> h(x) == c
    ensures Sum(xs, h) == |xs| * c
    decreases |xs|
  {
    if xs != [] {
      assert xs[0] in xs;
      assert forall x :: x in xs[1..] ==> x in xs;
      SumConstant(xs[1..], h, c);
    }
  }

  lemma {:induction false} SumScaled<T>(xs: seq<T>, g: T -> int, h: T -> int, c: int)
    requires forall x :: x in xs ==> h(x) == c * g(x)
    ensures Sum(xs, h) == c * Sum(xs, g)
    decreases |xs|
  {
    if xs != [] {
      assert xs[0] in xs;
      assert forall x :: x in xs[1..] ==> x in xs;
      SumScaled(xs[1..], g, h, c);
      assert c * g(xs[0]) + c * Sum(xs[1..], g) == c * (g(xs[0]) + Sum(xs[1..], g));
    }
  }

  lemma {:induction false} SumPointwise<T>(xs: seq<T>, h: T -> int, g: T -> int)
    requires forall x :: x in xs ==> h(x) == g(x)
    ensures Sum(xs, h) == Sum(xs, g)
    decreases |xs|
  {
    if xs != [] {
      assert xs[0] in xs;
      assert forall x :: x in xs[1..] ==> x in xs;
      SumPointwise(xs[1..], h, g);
    }
  }

  lemma {:induction false} SumAppend<T>(a: seq<T>, b: seq<T>, h: T -> int)
    ensures Sum(a + b, h) == Sum(a, h) + Sum(b, h)
    decreases |a|
  {
    if a == [] {
      assert a + b == b;
    } else {
      assert (a + b)[1..] == a[1..] + b;
      SumAppend(a[1..], b, h);
    }
  }

  lemma {:induction false} SumMap<A, B>(xs: seq<A>, f: A -> B, h: B -> int, g: A -> int)
    requires forall x :: x in xs ==> g(x) == h(f(x))
    ensures Sum(Map(xs, f), h) == Sum(xs, g)
    decreases |xs|
  {
    if xs != [] {
      assert xs[0] in xs;
      assert forall x :: x in xs[1..] ==> x in xs;
      assert Map(xs, f)[1..] == Map(xs[1..], f);
      SumMap(xs[1..], f, h, g);
    }
  }

  lemma {:induction false} SumFlatMap<A, B>(xs: seq<A>, f: A -> seq<B>, h: B -> int, g: A -> int)
    requires forall x :: x in xs ==> g(x) == Sum(f(x), h)
    ensures Sum(FlatMap(xs, f), h) == Sum(xs, g)
    decreases |xs|
  {
    if xs != [] {
      assert xs[0] in xs;
      assert forall x :: x in xs[1..] ==> x in xs;
      SumAppend(f(xs[0]), FlatMap(xs[1..], f), h);
      SumFlatMap(xs[1..], f, h, g);
    }
  }

  lemma {:induction false} FlatMapLength<A, B>(xs: seq<A>, f: A -> seq<B>, k: nat)
    requires forall x :: x in xs ==> |f(x)| == k
    ensures |FlatMap(xs, f)| == |xs| * k
    decreases |xs|
  {
    if xs != [] {
      assert xs[0] in xs;
      assert forall x :: x in xs[1..] ==> x in xs;
      FlatMapLength(xs[1..], f, k);
      MulSucc(|xs[1..]|, k);
    }
  }

  lemma MulSucc(n: int, k: int)
    ensures (n + 1) * k == n * k + k
  {
  }

  lemma {:induction false} FlatMapMember<A, B>(xs: seq<A>, f: A -> seq<B>, y: B)
    ensures y in FlatMap(xs, f) <==> exists x :: x in xs && y in f(x)
    decreases |xs|
  {
    if xs != [] {
      FlatMapMember(xs[1..], f, y);
      assert forall x :: x in xs[1..] ==> x in xs;
      if exists x :: x in xs && y in f(x) {
        var x :| x in xs && y in f(x);
        if x != xs[0] {
          assert x in xs[1..];
        }
      }
    }
  }

  /** Apply `f` to each element in order, stopping at the first error: a `_.map` whose callback may throw. */
  function MapResult<A, B, E>(xs: seq<A>, f: A -> Result<B, E>): Result<seq<B>, E>
    decreases |xs|
  {
    if xs == [] then Ok([])
    else
      match f(xs[0])
      case Err(e) => Err(e)
      case Ok(y) =>
        match MapResult(xs[1..], f)
        case Err(e) => Err(e)
        case Ok(ys) => Ok([y] + ys)
  }

  /** The mapping succeeds exactly when every call does, and then holds their results in order. */
  lemma {:induction false} MapResultOk<A, B, E>(xs: seq<A>, f: A -> Result<B, E>)
    ensures MapResult(xs, f).Ok? <==> forall i :: 0 <= i < |xs| ==> f(xs[i]).Ok?
    ensures MapResult(xs, f).Ok? ==>
              |MapResult(xs, f).value| == |xs|
              && forall i :: 0 <= i < |xs| ==> f(xs[i]) == Ok(MapResult(xs, f).value[i])
    decreases |xs|
  {
    if xs != [] {
      MapResultOk(xs[1..], f);
      forall i | 1 <= i < |xs|
        ensures xs[i] == xs[1..][i - 1]
      {
      }
    }
  }

  /** An element of a successful mapping is the result of some call. */
  lemma MapResultMember<A, B, E>(xs: seq<A>, f: A -> Result<B, E>, y: B)
    requires MapResult(xs, f).Ok?
    ensures y in MapResult(xs, f).value <==> exists x :: x in xs && f(x) == Ok(y)
  {
    var ys := MapResult(xs, f).value;
    MapResultOk(xs, f);
    if y in ys {
      var i :| 0 <= i < |ys| && ys[i] == y;
      assert xs[i] in xs && f(xs[i]) == Ok(y);
    }
    if exists x :: x in xs && f(x) == Ok(y) {
      var x :| x in xs && f(x) == Ok(y);
      var i :| 0 <= i < |xs| && xs[i] == x;
      assert ys[i] == y;
    }
  }

  /** A failing mapping reports the error of its first failing call. */
  lemma {:induction false} MapResultFirstError<A, B, E>(xs: seq<A>, f: A -> Result<B, E>)
    requires MapResult(xs, f).Err?
    ensures exists i :: 0 <= i < |xs| && f(xs[i]) == Err(MapResult(xs, f).error)
                        && forall j :: 0 <= j < i ==> f(xs[j]).Ok?
    decreases |xs|
  {
    if f(xs[0]).Ok? {
      MapResultFirstError(xs[1..], f);
      var i :| 0 <= i < |xs[1..]| && f(xs[1..][i]) == Err(MapResult(xs[1..], f).error)
               && forall j :: 0 <= j < i ==> f(xs[1..][j]).Ok?;
      forall j | 1 <= j < i + 1
        ensures f(xs[j]).Ok?
      {
        assert xs[j] == xs[1..][j - 1];
      }
      assert xs[i + 1] == xs[1..][i];
    }
  }
}

=== FILE: sizes.dfy ===
/**
 Print-size tokens to pixel dimensions (src/util/index.js): the named paper
 sizes A3-A6, the `<W>x<H>cm` / `<W>x<H>inch` tokens, printing at 300 DPI,
 and the landscape swap.
 */
module Sizes {
  import opened Seqs
  import opened Strings

  const OneCmInInch: real := 0.393700787
  const PrintDpi: int := 300

  datatype Inches = Inches(width: real, height: real)

  /** The named paper sizes and their portrait dimensions in inches. */
  function SizeInInches(name: string): Option<Inches>
  {
    if name == "A6" then Some(Inches(4.1, 5.8))
    else if name == "A5" then Some(Inches(5.8, 8.3))
    else if name == "A4" then Some(Inches(8.3, 11.7))
    else if name == "A3" then Some(Inches(11.7, 16.5))
    else None
  }

  /** A JavaScript pixel count: an integer, or NaN when `parseInt` found no digits. */
  datatype Pixels = Px(n: int) | NaN

  datatype Dimensions = Dimensions(width: Pixels, height: Pixels)

  /** The `size` argument: a string, or any other JavaScript value. */
  datatype SizeInput = SizeText(text: string) | NotText

  datatype SizeError = SizeFormatError(size: SizeInput)

  /** `Math.round`: the nearest integer, halves rounded up. */
  function Round(x: real): (r: int)
    ensures r as real <= x + 0.5 < r as real + 1.0
  {
    (x + 0.5).Floor
  }

  lemma RoundMonotone(x: real, y: real)
    requires x <= y
    ensures Round(x) <= Round(y)
  {
  }

  function Swap(d: Dimensions): Dimensions
  {
    Dimensions(d.height, d.width)
  }

  function ResolveOrientation(d: Dimensions, orientation: string): (r: Dimensions)
    ensures orientation == "landscape" ==> r == Swap(d)
    ensures orientation != "landscape" ==> r == d
  {
    if orientation == "landscape" then Dimensions(d.height, d.width) else d
  }

  /** `cm` or `inch` starts at index `k`. */
  predicate UnitAt(s: string, k: nat)
  {
    (k + 2 <= |s| && s[k..k + 2] == "cm") || (k + 4 <= |s| && s[k..k + 4] == "inch")
  }

  /** `s[i..k + unit]` is a match of `[0-9]+x[0-9]+(cm|inch)` whose `x` sits at `j`. */
  predicate MatchesAt(s: string, i: int, j: int, k: int)
  {
    0 <= i < j && j + 1 < k <= |s| && AllDigits(s[i..j]) && s[j] == 'x'
    && AllDigits(s[j + 1..k]) && UnitAt(s, k)
  }

  /** The unanchored regular expression `/[0-9]+x[0-9]+(cm|inch)/` finds a match somewhere in `s`. */
  ghost predicate MatchesSizePattern(s: string)
  {
    exists i, j, k :: MatchesAt(s, i, j, k)
  }

  /** End of the run of digits that starts at `a`. */
  function DigitRunEnd(s: string, a: nat): (k: nat)
    requires a <= |s|
    ensures a <= k <= |s|
    ensures AllDigits(s[a..k])
    ensures k == |s| || !IsDigit(s[k])
    decreases |s| - a
  {
    if a == |s| || !IsDigit(s[a]) then a
    else
      var k := DigitRunEnd(s, a + 1);
      assert s[a..k] == [s[a]] + s[a + 1..k];
      k
  }

  /** A match whose `x` is at `j`: the digit before it and the maximal digit run after it. */
  predicate MatchesWithX(s: string, j: nat)
  {
    1 <= j && j + 1 < |s| && IsDigit(s[j - 1]) && s[j] == 'x'
    && var k := DigitRunEnd(s, j + 1); k > j + 1 && UnitAt(s, k)
  }

  function ScanFrom(s: string, j: nat): bool
    decreases |s| - j
  {
    if j >= |s| then false else MatchesWithX(s, j) || ScanFrom(s, j + 1)
  }

  /** The regular-expression test of `parseSizeToPixelDimensions`, as a left-to-right scan. */
  function HasSizePattern(s: string): (b: bool)
    ensures b <==> MatchesSizePattern(s)
  {
    ScanCorrect(s, 0);
    ScanFrom(s, 0)
  }

  lemma {:induction false} DigitRunReaches(s: string, a: nat, k: nat)
    requires a <= k <= |s| && AllDigits(s[a..k])
    ensures DigitRunEnd(s, a) >= k
    decreases k - a
  {
    if a < k {
      assert s[a] == s[a..k][0];
      assert s[a + 1..k] == s[a..k][1..];
      DigitRunReaches(s, a + 1, k);
    }
  }

  lemma MatchesWithXIff(s: string, j: nat)
    ensures MatchesWithX(s, j) <==> exists i, k :: MatchesAt(s, i, j, k)
  {
    if MatchesWithX(s, j) {
      var k := DigitRunEnd(s, j + 1);
      assert s[j - 1..j] == [s[j - 1]];
      assert MatchesAt(s, j - 1, j, k);
    }
    if exists i, k :: MatchesAt(s, i, j, k) {
      var i, k :| MatchesAt(s, i, j, k);
      MatchHasX(s, i, j, k);
    }
  }

  /** A match with its `x` at `j` makes `MatchesWithX(s, j)` hold. */
  lemma MatchHasX(s: string, i: int, j: nat, k: int)
    requires MatchesAt(s, i, j, k)
    ensures MatchesWithX(s, j)
  {
    assert s[j - 1] == s[i..j][j - 1 - i];
    UnitLetter(s, k);
    DigitRunEndAt(s, j + 1, k);
  }

  /** A unit starts with `c` or `i`, neither of them a digit. */
  lemma UnitLetter(s: string, k: nat)
    ensures UnitAt(s, k) ==> k < |s| && (s[k] == 'c' || s[k] == 'i') && !IsDigit(s[k])
  {
    if k + 2 <= |s| && s[k..k + 2] == "cm" {
      assert s[k] == s[k..k + 2][0];
    } else if k + 4 <= |s| && s[k..k + 4] == "inch" {
      assert s[k] == s[k..k + 4][0];
    }
  }

  /** A digit run that ends at a non-digit (or the end of `s`) is the maximal run. */
  lemma {:induction false} DigitRunEndAt(s: string, a: nat, k: nat)
    requires a <= k <= |s| && AllDigits(s[a..k])
    requires k == |s| || !IsDigit(s[k])
    ensures DigitRunEnd(s, a) == k
    decreases k - a
  {
    if a < k {
      assert s[a] == s[a..k][0];
      assert s[a + 1..k] == s[a..k][1..];
      DigitRunEndAt(s, a + 1, k);
    }
  }

  lemma {:induction false} ScanCorrect(s: string, j0: nat)
    ensures ScanFrom(s, j0) <==> exists i, j, k :: j0 <= j && MatchesAt(s, i, j, k)
    decreases |s| - j0
  {
    MatchesWithXIff(s, j0);
    if j0 < |s| {
      ScanCorrect(s, j0 + 1);
      if exists i, j, k :: j0 <= j && MatchesAt(s, i, j, k) {
        var i, j, k :| j0 <= j && MatchesAt(s, i, j, k);
        if j == j0 {
          assert MatchesWithX(s, j0);
        } else {
          assert ScanFrom(s, j0 + 1);
        }
      }
    }
  }

  function InchesToPixels(inches: real): int
  {
    Round(inches * PrintDpi as real)
  }

  /** Inches (converted from centimetres when the unit says so) to pixels at the print DPI. */
  function ToPixels(value: Option<int>, isCm: bool): Pixels
  {
    match value
    case None => NaN
    case Some(n) =>
      Px(InchesToPixels(if isCm then n as real * OneCmInInch else n as real))
  }

  /**
   `parseSizeToPixelDimensions(size, orientation)`. A named size is looked up
   first; anything else must contain a match of the size pattern somewhere.
   The unit is the token's last two characters, the number text is the token
   without them, split at every `x`.
   */
  function ParseSizeToPixelDimensions(size: SizeInput, orientation: string): (r: Result<Dimensions, SizeError>)
    ensures r.Ok? <==> size.SizeText? && (SizeInInches(size.text).Some? || MatchesSizePattern(size.text))
  {
    match size
    case NotText => Err(SizeFormatError(size))
    case SizeText(s) =>
      match SizeInInches(s)
      case Some(inches) =>
        Ok(ResolveOrientation(Dimensions(Px(Round(inches.width * PrintDpi as real)),
                                         Px(Round(inches.height * PrintDpi as real))), orientation))
      case None =>
        if !HasSizePattern(s) then Err(SizeFormatError(size))
        else Ok(ResolveOrientation(TokenDimensions(s), orientation))
  }

  /**
   Portrait dimensions of a token that passed the pattern test: the unit is
   the last two characters, the numbers are the text before them split at
   every `x` (a missing second piece is `parseInt(undefined)`, NaN).
   */
  function TokenDimensions(s: string): Dimensions
  {
    var numbers := TokenNumbers(s);
    Dimensions(ToPixels(numbers.0, EndsInCm(s)), ToPixels(numbers.1, EndsInCm(s)))
  }

  /** `parseInt` of the first two `x`-separated pieces of the token without its last two characters. */
  function TokenNumbers(s: string): (Option<int>, Option<int>)
  {
    var cut := if |s| >= 2 then |s| - 2 else 0;
    PartNumbers(Split(s[..cut], 'x'))
  }

  function PartNumbers(parts: seq<string>): (Option<int>, Option<int>)
    requires |parts| >= 1
  {
    (ParseInt(parts[0]), if |parts| >= 2 then ParseInt(parts[1]) else None)
  }

  /** Every accepted size turned landscape is the portrait result with width and height swapped. */
  lemma LandscapeSwapsPortrait(size: SizeInput)
    ensures var p := ParseSizeToPixelDimensions(size, "portrait");
            var l := ParseSizeToPixelDimensions(size, "landscape");
            p.Ok? == l.Ok? && (p.Ok? ==> l.value == Swap(p.value))
  {
  }

  lemma NamedSizePixels(name: string, orientation: string)
    requires SizeInInches(name).Some?
    ensures var inches := SizeInInches(name).value;
            ParseSizeToPixelDimensions(SizeText(name), orientation)
            == Ok(ResolveOrientation(Dimensions(Px(Round(inches.width * 300.0)), Px(Round(inches.height * 300.0))),
                                     orientation))
  {
  }

  lemma A6Portrait()
    ensures ParseSizeToPixelDimensions(SizeText("A6"), "portrait") == Ok(Dimensions(Px(1230), Px(1740)))
  {
    assert Round(4.1 * 300.0) == 1230;
    assert Round(5.8 * 300.0) == 1740;
  }

  /** The unit test of `parseSizeToPixelDimensions`: the last two characters are `cm`. */
  predicate EndsInCm(s: string)
  {
    |s| >= 2 && s[|s| - 2..] == "cm"
  }

  /**
   A token `<w>x<b><rest>` where `b` is a digit run and `rest` holds the unit
   (at least two characters, no `x`, not starting with a digit): the width is
   whatever `parseInt` makes of `w`, the height is `b`, the unit comes from the
   last two characters of `rest`.
   */
  lemma TokenSplit(w: string, b: string, rest: string, s: string)
    requires 'x' !in w && b != [] && AllDigits(b)
    requires |rest| >= 2 && 'x' !in rest && !IsDigit(rest[0])
    requires s == w + "x" + b + rest
    ensures TokenNumbers(s) == (ParseInt(w), Some(DecimalValue(b)))
  {
    var r := rest[..|rest| - 2];
    TokenParts(w, b, rest, s);
    TokenNumbersPair(s, w, b + r);
    TokenPrefix(w, b, rest, s);
    ParseIntDigits(b, r);
  }

  lemma TokenNumbersPair(s: string, a: string, b: string)
    requires |s| >= 2 && Split(s[..|s| - 2], 'x') == [a, b]
    ensures TokenNumbers(s) == (ParseInt(a), ParseInt(b))
  {
  }

  lemma TokenParts(w: string, b: string, rest: string, s: string)
    requires 'x' !in w && b != [] && AllDigits(b)
    requires |rest| >= 2 && 'x' !in rest && !IsDigit(rest[0])
    requires s == w + "x" + b + rest
    ensures |s| >= 2 && Split(s[..|s| - 2], 'x') == [w, b + rest[..|rest| - 2]]
  {
    TokenPrefix(w, b, rest, s);
    SplitAtX(w, b + rest[..|rest| - 2]);
  }

  /** The token without its last two characters, and the height part of it. */
  lemma TokenPrefix(w: string, b: string, rest: string, s: string)
    requires 'x' !in w && b != [] && AllDigits(b)
    requires |rest| >= 2 && 'x' !in rest && !IsDigit(rest[0])
    requires s == w + "x" + b + rest
    ensures s[..|s| - 2] == w + "x" + (b + rest[..|rest| - 2])
    ensures 'x' !in b + rest[..|rest| - 2]
    ensures rest[..|rest| - 2] == [] || !IsDigit(rest[..|rest| - 2][0])
  {
    var r := rest[..|rest| - 2];
    assert s[..|s| - 2] == w + "x" + (b + r);
    assert forall m :: 0 <= m < |b| ==> b[m] != 'x';
    assert forall m :: 0 <= m < |r| ==> r[m] == rest[m];
  }

  lemma SplitAtX(w: string, tail: string)
    requires 'x' !in w && 'x' !in tail
    ensures Split(w + "x" + tail, 'x') == [w, tail]
  {
    var t := w + "x" + tail;
    assert t[..|w|] == w && t[|w|] == 'x' && t[|w| + 1..] == tail;
    SplitFirst(t, 'x', |w|);
    SplitNoSeparator(tail, 'x');
  }

  lemma TokenUnit(head: string, rest: string, s: string)
    requires |rest| >= 2
    requires s == head + rest
    ensures EndsInCm(s) == EndsInCm(rest)
  {
    assert s[|s| - 2..] == rest[|rest| - 2..];
  }

  /** A well-formed `<W>x<H><unit>` token is not a named size and matches the pattern. */
  lemma WellFormedMatches(a: string, b: string, unit: string, s: string)
    requires a != [] && AllDigits(a) && b != [] && AllDigits(b)
    requires unit == "cm" || unit == "inch"
    requires s == a + "x" + b + unit
    ensures SizeInInches(s) == None
    ensures MatchesSizePattern(s)
  {
    var j := |a|;
    var k := |a| + 1 + |b|;
    assert s[..j] == a && s[j] == 'x' && s[j + 1..k] == b;
    assert s[k..] == unit;
    assert s[j - 1..j] == [a[j - 1]];
    assert UnitAt(s, k) by {
      if unit == "cm" {
        assert s[k..k + 2] == "cm";
      } else {
        assert s[k..k + 4] == "inch";
      }
    }
    assert MatchesAt(s, j - 1, j, k);
  }

  /** A token in the form `TokenSplit` reads, that passes the pattern test. */
  lemma PatternToken(w: string, b: string, rest: string, s: string, orientation: string)
    requires 'x' !in w && b != [] && AllDigits(b)
    requires |rest| >= 2 && 'x' !in rest && !IsDigit(rest[0])
    requires s == w + "x" + b + rest
    requires SizeInInches(s) == None && MatchesSizePattern(s)
    ensures ParseSizeToPixelDimensions(SizeText(s), orientation)
            == Ok(ResolveOrientation(Dimensions(ToPixels(ParseInt(w), EndsInCm(rest)),
                                                ToPixels(Some(DecimalValue(b)), EndsInCm(rest))), orientation))
  {
    TokenSplit(w, b, rest, s);
    TokenUnit(w + "x" + b, rest, s);
    PatternBranch(s, orientation);
  }

  /** A token that is not a named size but contains a match takes the pattern branch. */
  lemma PatternBranch(s: string, orientation: string)
    requires SizeInInches(s) == None && MatchesSizePattern(s)
    ensures ParseSizeToPixelDimensions(SizeText(s), orientation) == Ok(ResolveOrientation(TokenDimensions(s), orientation))
  {
  }

  /** The numbers of a well-formed token, each scaled according to its unit. */
  lemma WellFormedTokenDimensions(a: string, b: string, unit: string, s: string)
    requires a != [] && AllDigits(a) && b != [] && AllDigits(b)
    requires unit == "cm" || unit == "inch"
    requires s == a + "x" + b + unit
    ensures SizeInInches(s) == None && MatchesSizePattern(s)
    ensures TokenDimensions(s)
            == Dimensions(ToPixels(Some(DecimalValue(a)), unit == "cm"), ToPixels(Some(DecimalValue(b)), unit == "cm"))
  {
    WellFormedMatches(a, b, unit, s);
    assert 'x' !in a by {
      assert forall m :: 0 <= m < |a| ==> a[m] != 'x';
    }
    UnitText(unit);
    TokenSplit(a, b, unit, s);
    TokenUnit(a + "x" + b, unit, s);
    ParseIntAllDigits(a);
  }

  lemma UnitText(unit: string)
    requires unit == "cm" || unit == "inch"
    ensures |unit| >= 2 && 'x' !in unit && !IsDigit(unit[0])
    ensures EndsInCm(unit) == (unit == "cm")
  {
    if unit == "inch" {
      assert unit[2..] == "ch";
    }
  }

  lemma InchPixels(n: int)
    ensures ToPixels(Some(n), false) == Px(n * 300)
  {
    assert Round((n * 300) as real) == n * 300;
  }

  /** `"<W>x<H>inch"` in portrait is exactly `W * 300` by `H * 300` pixels. */
  lemma InchTokenPixels(a: string, b: string)
    requires a != [] && AllDigits(a) && b != [] && AllDigits(b)
    ensures ParseSizeToPixelDimensions(SizeText(a + "x" + b + "inch"), "portrait")
            == Ok(Dimensions(Px(DecimalValue(a) * 300), Px(DecimalValue(b) * 300)))
  {
    var s := a + "x" + b + "inch";
    WellFormedTokenDimensions(a, b, "inch", s);
    PatternBranch(s, "portrait");
    InchPixels(DecimalValue(a));
    InchPixels(DecimalValue(b));
  }

  function CmPixels(n: int): int
  {
    InchesToPixels(n as real * OneCmInInch)
  }

  /** `"<W>x<H>cm"` converts each side at 0.393700787 inches per centimetre, then rounds. */
  lemma CmTokenPixels(a: string, b: string, orientation: string)
    requires a != [] && AllDigits(a) && b != [] && AllDigits(b)
    ensures ParseSizeToPixelDimensions(SizeText(a + "x" + b + "cm"), orientation)
            == Ok(ResolveOrientation(Dimensions(Px(CmPixels(DecimalValue(a))), Px(CmPixels(DecimalValue(b)))),
                                     orientation))
  {
    var s := a + "x" + b + "cm";
    WellFormedTokenDimensions(a, b, "cm", s);
    PatternBranch(s, orientation);
    CmPixelsOf(DecimalValue(a));
    CmPixelsOf(DecimalValue(b));
  }

  lemma CmPixelsOf(n: int)
    ensures ToPixels(Some(n), true) == Px(CmPixels(n))
  {
  }

  /** A centimetre token whose width is at most its height is no wider than tall in portrait. */
  lemma CmPortraitWidthAtMostHeight(a: string, b: string)
    requires a != [] && AllDigits(a) && b != [] && AllDigits(b)
    requires DecimalValue(a) <= DecimalValue(b)
    ensures var r := ParseSizeToPixelDimensions(SizeText(a + "x" + b + "cm"), "portrait");
            r.Ok? && r.value.width.Px? && r.value.height.Px? && r.value.width.n <= r.value.height.n
  {
    CmTokenPixels(a, b, "portrait");
    var x := DecimalValue(a) as real * OneCmInInch;
    var y := DecimalValue(b) as real * OneCmInInch;
    assert x * 300.0 <= y * 300.0;
    RoundMonotone(x * 300.0, y * 300.0);
  }

  lemma TwoDigits(s: string)
    requires |s| == 2 && AllDigits(s)
    ensures DecimalValue(s) == DigitValue(s[0]) * 10 + DigitValue(s[1])
  {
    var h := s[..1];
    assert h[..0] == [] && h[0] == s[0];
    assert DecimalValue(h) == DigitValue(s[0]);
  }

  /** `30x40cm` is 3543 by 4724 pixels in portrait and exactly swapped in landscape. */
  lemma ThirtyByFortyCm()
    ensures ParseSizeToPixelDimensions(SizeText("30x40cm"), "portrait") == Ok(Dimensions(Px(3543), Px(4724)))
    ensures ParseSizeToPixelDimensions(SizeText("30x40cm"), "landscape") == Ok(Dimensions(Px(4724), Px(3543)))
  {
    TwoDigits("30");
    TwoDigits("40");
    assert DecimalValue("30") == 30;
    assert DecimalValue("40") == 40;
    assert "30x40cm" == "30" + "x" + "40" + "cm";
    CmTokenPixels("30", "40", "portrait");
    CmTokenPixels("30", "40", "landscape");
    assert CmPixels(30) == 3543;
    assert CmPixels(40) == 4724;
  }

  /** `12x18inch` is 3600 by 5400 pixels: twelve and eighteen inches at 300 DPI. */
  lemma TwelveByEighteenInch()
    ensures ParseSizeToPixelDimensions(SizeText("12x18inch"), "portrait") == Ok(Dimensions(Px(3600), Px(5400)))
  {
    TwoDigits("12");
    TwoDigits("18");
    assert DecimalValue("12") == 12;
    assert DecimalValue("18") == 18;
    assert "12x18inch" == "12" + "x" + "18" + "inch";
    InchTokenPixels("12", "18");
  }

  /** A character after `cm` still passes the unanchored pattern, and the unit becomes inches. */
  lemma TrailingTextChangesUnit()
    ensures ParseSizeToPixelDimensions(SizeText("30x40cmz"), "portrait") == Ok(Dimensions(Px(9000), Px(12000)))
  {
    var s := "30x40cmz";
    var rest := "cmz";
    TrailingUnit();
    TrailingTextMatches();
    ThirtyForty();
    InchPixels(30);
    InchPixels(40);
    PatternToken("30", "40", rest, s, "portrait");
  }

  lemma TrailingUnit()
    ensures !EndsInCm("cmz") && 'x' !in "cmz" && !IsDigit("cmz"[0])
    ensures "30x40cmz" == "30" + "x" + "40" + "cmz"
  {
    assert "cmz"[1..] == "mz";
  }

  lemma ThirtyForty()
    ensures AllDigits("30") && AllDigits("40") && 'x' !in "30"
    ensures DecimalValue("30") == 30 && DecimalValue("40") == 40
    ensures ParseInt("30") == Some(30)
  {
    TwoDigits("30");
    TwoDigits("40");
    ParseIntAllDigits("30");
  }

  lemma TrailingTextMatches()
    ensures SizeInInches("30x40cmz") == None && MatchesSizePattern("30x40cmz")
  {
    WellFormedMatches("30", "40", "cm", "30x40cm");
    assert "30x40cmz" == "30x40cm" + "z";
    ExtendedMatch("30x40cm", "z");
  }

  /** Text after a match does not undo it. */
  lemma ExtendedMatch(s: string, tail: string)
    requires MatchesSizePattern(s)
    ensures MatchesSizePattern(s + tail)
  {
    var i, j, k :| MatchesAt(s, i, j, k);
    var t := s + tail;
    assert t[i..j] == s[i..j] && t[j + 1..k] == s[j + 1..k];
    assert k + 2 <= |s| ==> t[k..k + 2] == s[k..k + 2];
    assert k + 4 <= |s| ==> t[k..k + 4] == s[k..k + 4];
    assert MatchesAt(t, i, j, k);
  }

  /** Text before a match does not undo it. */
  lemma PrefixedMatch(head: string, s: string)
    requires MatchesSizePattern(s)
    ensures MatchesSizePattern(head + s)
  {
    var i, j, k :| MatchesAt(s, i, j, k);
    var n := |head|;
    ShiftedSlice(head, s, i, j);
    ShiftedSlice(head, s, j + 1, k);
    ShiftedUnit(head, s, k);
    assert (head + s)[n + j] == s[j];
    assert MatchesAt(head + s, n + i, n + j, n + k);
  }

  lemma ShiftedSlice(head: string, s: string, a: nat, b: nat)
    requires a <= b <= |s|
    ensures (head + s)[|head| + a..|head| + b] == s[a..b]
  {
    var t := head + s;
    assert forall m :: 0 <= m < b - a ==> t[|head| + a..|head| + b][m] == s[a..b][m];
  }

  lemma ShiftedUnit(head: string, s: string, k: nat)
    ensures UnitAt(s, k) ==> UnitAt(head + s, |head| + k)
  {
    if k + 2 <= |s| {
      ShiftedSlice(head, s, k, k + 2);
    }
    if k + 4 <= |s| {
      ShiftedSlice(head, s, k, k + 4);
    }
  }

  /** A match preceded by other text is accepted, but the width text before the `x` is NaN. */
  lemma LeadingTextGivesNaN()
    ensures ParseSizeToPixelDimensions(SizeText("a1x2inch"), "portrait") == Ok(Dimensions(NaN, Px(600)))
  {
    var s := "a1x2inch";
    LeadingTextMatches();
    LeadingWidth();
    LeadingWidthText();
    LeadingTokenParts();
    UnitText("inch");
    InchPixels(2);
    PatternToken("a1", "2", "inch", s, "portrait");
  }

  lemma LeadingTextMatches()
    ensures SizeInInches("a1x2inch") == None && MatchesSizePattern("a1x2inch")
  {
    WellFormedMatches("1", "2", "inch", "1x2inch");
    assert "a1x2inch" == "a" + "1x2inch";
    PrefixedMatch("a", "1x2inch");
  }

  lemma LeadingWidth()
    ensures ParseInt("a1") == None
  {
    NoDigitsNaN("a1");
  }

  lemma LeadingWidthText()
    ensures 'x' !in "a1"
  {
    assert "a1"[0] != 'x' && "a1"[1] != 'x';
  }

  /** A string that starts with a character that is no whitespace, sign or digit is NaN. */
  lemma NoDigitsNaN(w: string)
    requires w != [] && !IsJsWhitespace(w[0]) && !IsDigit(w[0]) && w[0] != '-' && w[0] != '+'
    ensures ParseInt(w) == None
  {
  }

  lemma LeadingTokenParts()
    ensures AllDigits("2") && DecimalValue("2") == 2
    ensures "a1x2inch" == "a1" + "x" + "2" + "inch"
  {
    assert "2"[..0] == "";
  }

  /** Anything that is not a string, or a string with no match of the pattern, is rejected. */
  lemma RejectedSizes()
    ensures ParseSizeToPixelDimensions(NotText, "portrait").Err?
    ensures ParseSizeToPixelDimensions(SizeText("30x40"), "portrait").Err?
    ensures ParseSizeToPixelDimensions(SizeText("A7"), "portrait").Err?
  {
    RejectedWithoutUnit("30x40");
    RejectedWithoutUnit("A7");
  }

  /** A string with neither `c` nor `i` in it holds no unit, so it is rejected unless it is a named size. */
  lemma RejectedWithoutUnit(s: string)
    requires SizeInInches(s).None?
    requires forall m :: 0 <= m < |s| ==> s[m] != 'c' && s[m] != 'i'
    ensures ParseSizeToPixelDimensions(SizeText(s), "portrait").Err?
  {
    forall i, j, k
      ensures !MatchesAt(s, i, j, k)
    {
      if k >= 0 {
        UnitLetter(s, k);
      }
    }
  }
}

=== FILE: stablesort.dfy ===
/**
 A stable sort on an integer key, largest key first: `_.orderBy(xs, key, 'desc')`.
 */
module StableSort {
  import opened Seqs

  /** Keys never increase from left to right. */
  predicate NonIncreasing<T>(xs: seq<T>, key: T -> int)
  {
    forall i, j :: 0 <= i < j < |xs| ==> key(xs[i]) >= key(xs[j])
  }

  /** The elements whose key is `k`. */
  function WithKey<T>(key: T -> int, k: int): T -> bool
  {
    (x: T) => key(x) == k
  }

  /** Puts `x` after every element with a larger key and before the rest. */
  function Insert<T>(x: T, s: seq<T>, key: T -> int): (r: seq<T>)
    ensures |r| == |s| + 1
    decreases |s|
  {
    if s == [] || key(s[0]) <= key(x) then [x] + s else [s[0]] + Insert(x, s[1..], key)
  }

  /** Insertion sort from the back, so that equal keys keep their input order. */
  function SortDesc<T>(xs: seq<T>, key: T -> int): (r: seq<T>)
    ensures |r| == |xs|
    decreases |xs|
  {
    if xs == [] then [] else Insert(xs[0], SortDesc(xs[1..], key), key)
  }

  lemma {:induction false} InsertPermutation<T>(x: T, s: seq<T>, key: T -> int)
    ensures multiset(Insert(x, s, key)) == multiset([x] + s)
    decreases |s|
  {
    if s != [] && key(s[0]) > key(x) {
      InsertPermutation(x, s[1..], key);
      assert s == [s[0]] + s[1..];
    }
  }

  lemma {:induction false} InsertSorted<T>(x: T, s: seq<T>, key: T -> int)
    requires NonIncreasing(s, key)
    ensures NonIncreasing(Insert(x, s, key), key)
    decreases |s|
  {
    if s != [] && key(s[0]) > key(x) {
      var tail := Insert(x, s[1..], key);
      InsertSorted(x, s[1..], key);
      InsertPermutation(x, s[1..], key);
      var r := [s[0]] + tail;
      forall j | 1 <= j < |r|
        ensures key(r[0]) >= key(r[j])
      {
        assert r[j] in multiset(tail);
        assert r[j] in multiset([x] + s[1..]);
        if r[j] != x {
          assert r[j] in s[1..];
          var m :| 0 <= m < |s[1..]| && s[1..][m] == r[j];
          assert s[m + 1] == r[j];
        }
      }
    }
  }

  /**
   Inserting `x` into a sorted `s` keeps, for every key, the elements with
   that key in the order of `[x] + s`.
   */
  lemma {:induction false} InsertStable<T>(x: T, s: seq<T>, key: T -> int, k: int)
    requires NonIncreasing(s, key)
    ensures Filter(Insert(x, s, key), WithKey(key, k)) == Filter([x] + s, WithKey(key, k))
    decreases |s|
  {
    var p := WithKey(key, k);
    if s != [] && key(s[0]) > key(x) {
      InsertStable(x, s[1..], key, k);
      var tail := Insert(x, s[1..], key);
      assert Insert(x, s, key) == [s[0]] + tail;
      assert ([s[0]] + tail)[1..] == tail;
      assert ([x] + s[1..])[1..] == s[1..];
      assert ([x] + s)[1..] == s;
      assert s == [s[0]] + s[1..];
      if p(x) {
        assert !p(s[0]);
      }
    }
  }

  /** `SortDesc` returns a permutation of its input with keys non-increasing. */
  lemma {:induction false} SortDescSorted<T>(xs: seq<T>, key: T -> int)
    ensures NonIncreasing(SortDesc(xs, key), key)
    ensures multiset(SortDesc(xs, key)) == multiset(xs)
    decreases |xs|
  {
    if xs != [] {
      SortDescSorted(xs[1..], key);
      InsertSorted(xs[0], SortDesc(xs[1..], key), key);
      InsertPermutation(xs[0], SortDesc(xs[1..], key), key);
      assert xs == [xs[0]] + xs[1..];
    }
  }

  /** Ties keep their input order: for every key, the elements with that key appear as they did in `xs`. */
  lemma {:induction false} SortDescStable<T>(xs: seq<T>, key: T -> int, k: int)
    ensures Filter(SortDesc(xs, key), WithKey(key, k)) == Filter(xs, WithKey(key, k))
    decreases |xs|
  {
    if xs != [] {
      var rest := SortDesc(xs[1..], key);
      SortDescStable(xs[1..], key, k);
      SortDescSorted(xs[1..], key);
      InsertStable(xs[0], rest, key, k);
      assert ([xs[0]] + rest)[1..] == rest;
    }
  }

  /** Any two sequences that are sorted, permutations of each other and stable on every key are equal. */
  lemma {:induction false} SortDescUnique<T>(xs: seq<T>, ys: seq<T>, key: T -> int)
    requires NonIncreasing(xs, key) && NonIncreasing(ys, key)
    requires multiset(xs) == multiset(ys)
    requires forall k :: Filter(xs, WithKey(key, k)) == Filter(ys, WithKey(key, k))
    ensures xs == ys
    decreases |xs|
  {
    if xs != [] {
      LeadingKey(xs, ys, key);
      SameHead(xs, ys, key);
      forall k | true
        ensures Filter(xs[1..], WithKey(key, k)) == Filter(ys[1..], WithKey(key, k))
      {
        TailFilters(xs, ys, key, k);
      }
      assert xs == [xs[0]] + xs[1..];
      assert ys == [ys[0]] + ys[1..];
      TailMultiset(xs, ys);
      SortDescUnique(xs[1..], ys[1..], key);
    }
  }

  /** Sequences with equal per-key filters and equal leading keys have the same head. */
  lemma SameHead<T>(xs: seq<T>, ys: seq<T>, key: T -> int)
    requires xs != [] && ys != [] && key(xs[0]) == key(ys[0])
    requires Filter(xs, WithKey(key, key(xs[0]))) == Filter(ys, WithKey(key, key(xs[0])))
    ensures xs[0] == ys[0]
  {
    var p := WithKey(key, key(xs[0]));
    assert Filter(xs, p)[0] == xs[0];
    assert Filter(ys, p)[0] == ys[0];
  }

  lemma TailMultiset<T>(xs: seq<T>, ys: seq<T>)
    requires xs != [] && ys != [] && xs[0] == ys[0] && multiset(xs) == multiset(ys)
    ensures multiset(xs[1..]) == multiset(ys[1..])
  {
    assert xs == [xs[0]] + xs[1..];
    assert ys == [ys[0]] + ys[1..];
    assert multiset(xs[1..]) == multiset(xs) - multiset([xs[0]]);
    assert multiset(ys[1..]) == multiset(ys) - multiset([ys[0]]);
  }

  /** Dropping one common head keeps the filters of the two sequences equal. */
  lemma TailFilters<T>(xs: seq<T>, ys: seq<T>, key: T -> int, k: int)
    requires xs != [] && ys != [] && xs[0] == ys[0]
    requires Filter(xs, WithKey(key, k)) == Filter(ys, WithKey(key, k))
    ensures Filter(xs[1..], WithKey(key, k)) == Filter(ys[1..], WithKey(key, k))
  {
    var q := WithKey(key, k);
    var a := Filter(xs[1..], q);
    var b := Filter(ys[1..], q);
    if q(xs[0]) {
      assert Filter(xs, q) == [xs[0]] + a;
      assert Filter(ys, q) == [ys[0]] + b;
      assert a == ([xs[0]] + a)[1..];
      assert b == ([ys[0]] + b)[1..];
    }
  }

  /** Two sorted permutations start with the same key. */
  lemma LeadingKey<T>(xs: seq<T>, ys: seq<T>, key: T -> int)
    requires xs != [] && NonIncreasing(xs, key) && NonIncreasing(ys, key)
    requires multiset(xs) == multiset(ys)
    ensures ys != [] && key(ys[0]) == key(xs[0])
  {
    assert xs[0] in multiset(ys);
    var i :| 0 <= i < |ys| && ys[i] == xs[0];
    assert ys[0] in multiset(xs);
    var j :| 0 <= j < |xs| && xs[j] == ys[0];
  }
}

=== FILE: strings.dfy ===
/**
 String helpers with the JavaScript semantics the scripts rely on:
 `String.prototype.split` on a one-character separator, `Array.prototype.join`,
 `_.endsWith` and `parseInt(s, 10)`.
 */
module Strings {
  import opened Seqs

  /** `s.split(c)`: the pieces between occurrences of `c`; never empty. */
  function Split(s: string, c: char): (parts: seq<string>)
    ensures |parts| >= 1
    ensures forall i :: 0 <= i < |parts| ==> c !in parts[i]
    decreases |s|
  {
    if s == [] then [""]
    else if s[0] == c then [""] + Split(s[1..], c)
    else
      var rest := Split(s[1..], c);
      [[s[0]] + rest[0]] + rest[1..]
  }

  /** `parts.join(c)`. */
  function Join(parts: seq<string>, c: char): string
    decreases |parts|
  {
    if parts == [] then ""
    else if |parts| == 1 then parts[0]
    else parts[0] + [c] + Join(parts[1..], c)
  }

  lemma {:induction false} JoinSplit(s: string, c: char)
    ensures Join(Split(s, c), c) == s
    decreases |s|
  {
    if s != [] {
      var rest := Split(s[1..], c);
      JoinSplit(s[1..], c);
      if s[0] == c {
        assert Split(s, c)[1..] == rest;
      } else {
        var parts := Split(s, c);
        assert parts[1..] == rest[1..];
        if |rest| == 1 {
          assert s == [s[0]] + rest[0];
        } else {
          assert Join(rest, c) == rest[0] + [c] + Join(rest[1..], c);
          assert s == [s[0]] + rest[0] + [c] + Join(rest[1..], c);
        }
      }
    }
  }

  lemma {:induction false} SplitJoin(parts: seq<string>, c: char)
    requires |parts| >= 1
    requires forall i :: 0 <= i < |parts| ==> c !in parts[i]
    ensures Split(Join(parts, c), c) == parts
    decreases |parts|, |parts[0]|
  {
    var p0 := parts[0];
    if |parts| == 1 {
      SplitNoSeparator(p0, c);
    } else if p0 == [] {
      var tail := Join(parts[1..], c);
      assert Join(parts, c) == [c] + tail;
      SplitJoin(parts[1..], c);
      assert ([c] + tail)[1..] == tail;
    } else {
      var shorter := [p0[1..]] + parts[1..];
      assert shorter[1..] == parts[1..];
      SplitJoin(shorter, c);
      var s := Join(parts, c);
      assert s == [p0[0]] + Join(shorter, c);
      assert s[1..] == Join(shorter, c);
      assert p0 == [p0[0]] + p0[1..];
    }
  }

  lemma {:induction false} SplitNoSeparator(s: string, c: char)
    requires c !in s
    ensures Split(s, c) == [s]
    decreases |s|
  {
    if s != [] {
      SplitNoSeparator(s[1..], c);
      assert [s[0]] + s[1..] == s;
    }
  }

  /** With at least one separator, the first piece is everything before the first separator. */
  lemma SplitFirst(s: string, c: char, k: nat)
    requires k < |s| && s[k] == c && c !in s[..k]
    ensures |Split(s, c)| >= 2
    ensures Split(s, c)[0] == s[..k]
    ensures Split(s, c)[1..] == Split(s[k + 1..], c)
    decreases k
  {
    if k > 0 {
      assert s[1..][..k - 1] == s[..k][1..];
      SplitFirst(s[1..], c, k - 1);
      assert s[1..][k..] == s[k + 1..];
      assert s[..k] == [s[0]] + s[1..][..k - 1];
    }
  }

  predicate EndsWith(s: string, suffix: string)
  {
    |suffix| <= |s| && s[|s| - |suffix|..] == suffix
  }

  predicate IsDigit(c: char)
  {
    '0' <= c <= '9'
  }

  predicate AllDigits(s: string)
  {
    forall i :: 0 <= i < |s| ==> IsDigit(s[i])
  }

  function DigitValue(c: char): nat
    requires IsDigit(c)
  {
    (c as int) - ('0' as int)
  }

  /** The decimal value of a run of digits. */
  function DecimalValue(s: string): nat
    requires AllDigits(s)
    decreases |s|
  {
    if s == [] then 0 else DecimalValue(s[..|s| - 1]) * 10 + DigitValue(s[|s| - 1])
  }

  /** The longest prefix of `s` made of digits. */
  function LeadingDigits(s: string): (r: string)
    ensures AllDigits(r)
    ensures r <= s
    ensures |r| < |s| ==> !IsDigit(s[|r|])
    decreases |s|
  {
    if s == [] || !IsDigit(s[0]) then [] else [s[0]] + LeadingDigits(s[1..])
  }

  /** The characters `parseInt` skips before a number (ECMAScript StrWhiteSpaceChar). */
  predicate IsJsWhitespace(c: char)
  {
    c == '\t' || c == '\n' || c == '\U{B}' || c == '\U{C}' || c == '\r' || c == ' '
    || c == '\U{A0}' || c == '\U{1680}' || ('\U{2000}' <= c <= '\U{200A}')
    || c == '\U{2028}' || c == '\U{2029}' || c == '\U{202F}' || c == '\U{205F}'
    || c == '\U{3000}' || c == '\U{FEFF}'
  }

  function TrimStart(s: string): (r: string)
    ensures |r| <= |s| && r == s[|s| - |r|..]
    ensures r == [] || !IsJsWhitespace(r[0])
    decreases |s|
  {
    if s != [] && IsJsWhitespace(s[0]) then TrimStart(s[1..]) else s
  }

  /**
   `parseInt(s, 10)`: optional leading whitespace, an optional sign, then the
   longest run of decimal digits; `None` stands for NaN (no digits).
   */
  function ParseInt(s: string): Option<int>
  {
    var t := TrimStart(s);
    var negative := |t| > 0 && t[0] == '-';
    var body := if |t| > 0 && (t[0] == '-' || t[0] == '+') then t[1..] else t;
    var digits := LeadingDigits(body);
    var magnitude: int := if digits == [] then 0 else DecimalValue(digits);
    if digits == [] then None
    else if negative then Some(-magnitude)
    else Some(magnitude)
  }

  /** A digit run followed by anything that is not a digit parses to its decimal value. */
  lemma ParseIntDigits(digits: string, rest: string)
    requires digits != [] && AllDigits(digits)
    requires rest == [] || !IsDigit(rest[0])
    ensures ParseInt(digits + rest) == Some(DecimalValue(digits))
  {
    var s := digits + rest;
    assert s[0] == digits[0] && IsDigit(s[0]);
    assert !IsJsWhitespace(s[0]);
    assert TrimStart(s) == s;
    assert s[0] != '-' && s[0] != '+';
    LeadingDigitsOf(digits, rest);
  }

  lemma ParseIntAllDigits(digits: string)
    requires digits != [] && AllDigits(digits)
    ensures ParseInt(digits) == Some(DecimalValue(digits))
  {
    ParseIntDigits(digits, "");
    assert digits + "" == digits;
  }

  lemma {:induction false} LeadingDigitsOf(digits: string, rest: string)
    requires AllDigits(digits)
    requires rest == [] || !IsDigit(rest[0])
    ensures LeadingDigits(digits + rest) == digits
    decreases |digits|
  {
    if digits != [] {
      LeadingDigitsOf(digits[1..], rest);
      assert (digits + rest)[1..] == digits[1..] + rest;
      assert digits == [digits[0]] + digits[1..];
    } else {
      assert digits + rest == rest;
    }
  }
}
